=== FILE: README.md ===
# Graduate-studies assistant bot — a Dafny model of its core

The bot answers graduate-studies questions in a Telegram chat. A question
is looked up in a vector store. When some retrieved chunk is similar enough,
a language model is asked to answer from those chunks and to end its answer
with a `CONFIDENCE: high|medium|low` tag. Low-confidence answers, and
messages that ask for a person, are escalated to the admin chat. The admin
answers with `/reply <user id> <text>` or with two buttons under the
notification.

This project models that core as pure functions:

- `Engine` (`app/rag/engine.py`). `RAGEngine.query` is modelled as `Plan`,
  which decides whether a completion is needed and builds the prompt, and
  `Query`, which composes the whole result. Also modelled: the numbered
  context block, and the parsing of the confidence tag in `_generate_answer`.
  The similarity search and the HTTP completion are inputs: `hits` and
  `reply: Completion`.
- `Escalation` (`app/escalation.py`). The keyword list, the keyword
  trigger, and the exact notification text, buttons and return value of
  `escalate_to_admin`. The transport's `send_message` is a parameter.
- `Bot` (`app/bot.py`). `handle_message`, `cmd_reply` and
  `handle_callback`, each returning the list of chat actions it performs,
  in order. The outcomes of the calls it makes are inputs.
- Support modules:
  - `Text`: Python's `str.strip`, `in`, `replace`, `join` and `startswith`.
  - `Numbers`: `str(int)`, `int(str)` and `format(x, ".2f")`.
  - `Results`: `Option` and the outcome of a send.

Four behaviours of the code that are easy to miss:

- The code removes every occurrence of the winning tag, not only the first
  (`str.replace` without a count). `Engine.EveryTagCopyRemoved` shows this.
- Tag parsing is not idempotent. `Engine.ParseIsNotIdempotent` gives a
  reply whose parsed answer parses again to something different.
- The partial-answer branch of `handle_message` can never run with the
  engine's own results. The engine sets `needs_escalation` only for `low`
  confidence, and the branch requires `medium`.
  - `Bot.PartialReplyUnreachable` proves this for every input.
  - `Bot.PartialReplyBranch` proves what the branch would do if it ran.
- `/reply` works only from the admin's private chat. The notification goes
  to the chat `admin_chat_id`, but `cmd_reply` compares that value with the
  sender's user id. When the admin chat is a group, whose id is no user's
  id, every `/reply` is ignored silently, so the instruction printed in the
  notification cannot be followed. The first clause of `Bot.CmdReply`
  states this; `Bot.ReplyInstructionReachesUser` holds for a sender whose
  id equals `admin_chat_id`.

## Model

| member | source | states |
|---|---|---|
| Engine.Query | app/rag/engine.py:41-98 | No hits gives an empty, low-confidence, escalated result with nothing attached. When every score is below the threshold (the double 0.35), the answer is the fixed apology at low confidence. Otherwise the hits' texts and scores are attached in retrieval order. A failed completion gives the error apology at `low`. A completed one gives the parsed tag and answer. Escalation is flagged exactly when the confidence is `low`. |
| Engine.Plan | app/rag/engine.py:50-88 | A completion is requested exactly when some hit reaches the threshold. Its prompt then carries the question and the numbered context block. |
| Engine.NoCompletionBelowThreshold | app/rag/engine.py:69-76 | When no hit reaches the threshold, no completion is requested. The result is the same whatever the completion would have returned. |
| Engine.ThresholdScoreGenerates | app/rag/engine.py:69 | A hit whose score is the double 0.35 itself is not below the threshold, so a completion is requested. |
| Engine.ReachesThreshold | app/rag/engine.py:66-69 | The best score reaches the threshold exactly when some hit's score does. |
| Engine.MaxScore | app/rag/engine.py:66 | The best score is one of the scores and bounds all of them. |
| Engine.Contents | app/rag/engine.py:60-62 | The sources are the hits' texts, in retrieval order. |
| Engine.Scores | app/rag/engine.py:60-61 | The similarity scores are the hits' scores, in retrieval order. |
| Engine.PartHeaderNamesSource | app/rag/engine.py:81-83 | A part header names the part's number and the hit's source. The source is the metadata value when present, and `غير محدد` when missing. |
| Engine.SourceName | app/rag/engine.py:81 | The metadata's `source`, or `غير محدد` when it has none. `Engine.PartHeaderNamesSource` shows the header carries it. |
| Engine.PartHeader | app/rag/engine.py:81-83 | The header line of a part: its number, the hit's source and the score to two decimals. `Engine.PartHeaderNamesSource` states what it names. |
| Engine.Part | app/rag/engine.py:82-84 | A part is its header line followed by the hit's text. |
| Engine.NumberedParts | app/rag/engine.py:79-84 | There is one part per hit, in retrieval order, and the part of hit `i` carries the number `first + i`. |
| Engine.ContextBlock | app/rag/engine.py:79-85 | The parts numbered from 1, joined by the separator `\n\n---\n\n`. `Engine.ContextMentionsEveryHit` and `Engine.ContextAppend` state its content and order. |
| Engine.ContextMentionsEveryHit | app/rag/engine.py:79-85 | Every hit's text appears in the context block under its header, numbered by position from 1. |
| Engine.ContextAppend | app/rag/engine.py:79-85 | One more hit appends exactly the separator, then that hit's header and text. |
| Engine.UserPrompt | app/rag/engine.py:119-125 | The user message contains both the context and the question. |
| Engine.ParseConfidence | app/rag/engine.py:148-156 | `high` is chosen whenever its tag occurs. `medium` is chosen when its tag occurs and `high`'s does not. `low` is chosen only when it is the sole tag. With no tag, the text is kept and the level is `medium`. When a tag was found, the answer is the text with every copy of that tag removed, then stripped. |
| Engine.Tag | app/rag/engine.py:152 | The literal `CONFIDENCE: <level>` searched for. `Engine.TagInsideTag` shows one tag occurs in another only as the whole of it. |
| Engine.ParseReply | app/rag/engine.py:146-156 | The reply is stripped before tags are looked for. Stripping never hides or reveals a tag, so `high` is chosen exactly when its tag occurs in the raw reply, and `low` exactly when it is the only tag there. |
| Engine.GenerateAnswer | app/rag/engine.py:127-162 | A failed completion gives the fixed error apology at `low`. A completed one is parsed as above. The level is `low` exactly when the call failed or `low` is the only tag in the generated text. |
| Engine.ParsedAnswerShape | app/rag/engine.py:146-156 | The parsed answer is always stripped. With a tag it is at least one tag shorter than the reply. Without one it is the stripped reply, at `medium`. |
| Engine.TaggedReplyRoundTrip | app/rag/engine.py:112-117 | An answer that is stripped and holds no tag, followed by a line break and the tag of a level, parses back to that answer and that level. |
| Engine.BareTag | app/rag/engine.py:151-156 | A reply that is only a tag parses to its level with an empty answer. |
| Engine.ParseIsNotIdempotent | app/rag/engine.py:151-156 | A reply with the `high` tag and then the `low` tag parses to `high`, with the `low` tag left in the answer. Parsing that answer again gives `low` and an empty answer. |
| Engine.EveryTagCopyRemoved | app/rag/engine.py:153-155 | A reply holding the `high` tag twice parses to `high` with an empty answer. |
| Escalation.ShouldEscalateByKeywords | app/escalation.py:27-30 | The result is true exactly when some keyword occurs in the stripped message. |
| Escalation.KeywordsAreTrimmed | app/escalation.py:11-24 | Every keyword has at least five characters and no whitespace at either end. |
| Escalation.StripIsIrrelevant | app/escalation.py:27-30 | Stripping first changes nothing: a message triggers exactly when some keyword occurs in the raw text. |
| Escalation.TriggersOfStripped | app/escalation.py:27-30 | A message and its stripped form trigger alike. |
| Escalation.TriggerIsMonotone | app/escalation.py:27-30 | Any text containing a triggering message also triggers. |
| Escalation.KeywordTriggers | app/escalation.py:11-30 | Every keyword on its own triggers. |
| Escalation.ExactRequestTriggers | app/escalation.py:12 | The plain request to talk to a person triggers. |
| Escalation.ShortMessageHasNoKeyword | app/escalation.py:11-30 | Every keyword has at least five characters, so a shorter message cannot trigger. |
| Escalation.Excerpt | app/escalation.py:54-57 | A context of at most 500 characters is quoted whole. A longer one is quoted as its first 500 characters followed by `...`. |
| Escalation.Handle | app/escalation.py:48 | The username, or `بدون` when it is missing or empty. `Escalation.NoticeMentions` shows the notification carries it after `@`. |
| Escalation.NoticeText | app/escalation.py:44-63 | The notification text. `Escalation.NoticeLayout` states its layout and `Escalation.NoticeMentions` what it names. |
| Escalation.NoticeMentions | app/escalation.py:44-63 | The notification names the user's full name, `@` with the handle (`@بدون` when the username is missing or empty), the reason and the question. It carries the `/reply <id>` instruction and quotes a non-empty context. |
| Escalation.NoticeLayout | app/escalation.py:44-63 | Without a context, the notification is the head followed directly by the reply instruction. With a non-empty context, the section title, the excerpt and the closing tag come between the two, and nowhere else. |
| Escalation.ButtonDataCarriesId | app/escalation.py:66-71 | There are two buttons. Their payloads start with `resolved:` and `note:`, and the user id parses back from the rest. |
| Escalation.NoticeButtons | app/escalation.py:66-71 | The two buttons, `✅ تم الرد` and `📌 تعليق`. `Escalation.ButtonDataCarriesId` states their payloads. |
| Escalation.AdminNotice | app/escalation.py:73-79 | What is posted: the admin chat, the notification text and the two buttons. `Escalation.EscalateToAdmin` hands it to the transport. |
| Escalation.EscalateToAdmin | app/escalation.py:73-84 | The function returns true exactly when sending the notification to the admin chat succeeded. A raised error gives false. |
| Bot.BestOrZero | app/bot.py:176 | An empty score list gives 0. Otherwise the result is one of the scores and bounds all of them. |
| Bot.ConfidenceReason | app/bot.py:176 | The reason `ثقة: <level> \| أعلى تشابه: <best score to 2 decimals>`. `Bot.PartialReplyBranch` spells it out for a `medium` result. |
| Bot.PartialReply | app/bot.py:162-166 | The answer followed by the warning that it may be incomplete. `Bot.PartialReplyBranch` shows when it is sent. |
| Bot.AfterEngine | app/bot.py:159-181 | A result not flagged for escalation is sent as it is. A flagged one is escalated with its answer as context and the confidence reason, then the user is notified. The answer goes out first, with the warning, exactly when it is non-empty and `medium`. |
| Bot.Respond | app/bot.py:136-181 | A keyword escalates at once with the keyword reason and no context. The engine is asked exactly when no keyword occurs. Every escalation is the last action but one, followed only by the notice to the user. Five actions happen exactly in the partial-answer case. |
| Bot.HandleMessage | app/bot.py:125-181 | A blank message does nothing. Every other message is handled as its stripped text, according to whether a keyword occurs. |
| Bot.HandleMessageWithEngine | app/bot.py:155-156 | `handle_message` with the engine's search hits and completion outcome as inputs. `Bot.PartialReplyUnreachable` and `Bot.KeywordBypassesEngine` state its behaviour. |
| Bot.KeywordEscalatesAtOnce | app/bot.py:128-146 | A keyword anywhere in the raw message triggers. Such a message is escalated at once, with the stripped message as the question. |
| Bot.KeywordBypassesEngine | app/bot.py:136-146 | A keyword message gives the same two actions whatever the engine would have returned. |
| Bot.ConfidentOrEscalated | app/bot.py:159-181 | When a result is flagged only at `low` confidence, the bot either sends the answer alone or escalates without replying first. |
| Bot.LowOnlyRespond | app/bot.py:148-181 | For a result flagged only at `low`, a message without a keyword gives typing, the engine query, then either the answer alone or an escalation followed by the notice to the user. |
| Bot.PartialReplyUnreachable | app/bot.py:159-167 | With the engine's own result, no partial answer is ever sent. The outcome is the answer alone or a plain escalation. |
| Bot.PartialReplyBranch | app/bot.py:159-178 | A non-empty `medium` answer flagged for escalation goes out with the warning. It is then escalated with the answer as context and the reason `ثقة: medium \| أعلى تشابه: <best score to 2 decimals>`. |
| Bot.EscalationQuotesQuestion | app/bot.py:137-177 | Every escalation raised by `handle_message` is about the stripped message, and its notification quotes that message. |
| Bot.Forward | app/bot.py:105-118 | The words, joined by single spaces under the specialist header, go to the target chat. The admin gets "sent" exactly when that send succeeded. A failed send is reported with its error. A failing confirmation is reported as a failure after the "sent" reply. |
| Bot.AdminReplyBodyMentions | app/bot.py:105-113 | The forwarded text starts with the header and contains every word. |
| Bot.CmdReply | app/bot.py:91-118 | Anyone but the admin gets no response. Fewer than two arguments give the usage text. An id that `int()` rejects gives the invalid-id message. Otherwise the remaining arguments are forwarded to the parsed id. |
| Bot.ReplyInstructionReachesUser | app/bot.py:93-115 | When typed by the user whose id is `admin_chat_id` (that is, when the admin chat is that admin's private chat), the notification's `/reply <id>` followed by words sends those words to that user's chat. |
| Bot.HandleCallback | app/bot.py:193-210 | Every press is acknowledged. When the acknowledgement raises, nothing else happens. Otherwise a `resolved:` payload appends the closed marker to the notification, any other `note:` payload appends the note marker, and anything else edits nothing. An edit keeps the notification's text as a prefix. |
| Bot.ButtonsDispatch | app/bot.py:199-210 | Once the press is acknowledged, the notification's two buttons lead to the two different markers. |
| Numbers.ParseInt | app/bot.py:103-108 | An accepted id is, once stripped, an optional leading sign followed by digits and underscores only, so an argument holding a letter, `@` or an inner space takes the invalid-id path. Every run of digits is accepted with its decimal value. A blank argument is rejected. |
| Text.FindSubstring | app/escalation.py:30 | The test `kw in message` answers true exactly when the keyword occurs at some position of the message. |
| Text.FindAny | app/escalation.py:30 | `any(...)` over the keywords answers true exactly when one of them occurs. |
| Text.StartsWith | app/bot.py:199-205 | Python's `str.startswith`. `Text.PrefixStarts` shows a concatenation starts with its first part, which `Bot.ButtonsDispatch` uses on the payloads. |
| Text.Strip | app/bot.py:128 | Python's `str.strip()`: leading, then trailing whitespace as `str.isspace` defines it is dropped. `Text.StripContained` and `Text.TrimmedOccurrenceSurvivesStrip` state what survives. |
| Text.TrimmedOccurrenceSurvivesStrip | app/escalation.py:29-30 | A keyword that occurs in a text still occurs after the text is stripped, because no keyword begins or ends with whitespace. |
| Text.StripContained | app/escalation.py:29-30 | The stripped message is part of the raw one, so a keyword found after stripping was in the raw text. |
| Text.ReplaceAbsent | app/rag/engine.py:155 | Replacing a tag that does not occur leaves the text unchanged. |
| Text.RemoveShrinks | app/rag/engine.py:155 | Deleting every copy of a tag never lengthens the text, and a text holding the tag loses at least one copy. |
| Text.ReplaceAll | app/rag/engine.py:155 | Python's `str.replace` without a count: every non-overlapping copy, scanning from the left, is replaced. `Text.ReplaceAbsent` and `Text.RemoveShrinks` state its properties. |
| Text.JoinContainsPart | app/bot.py:105 | Every word joined by `" ".join` appears in the joined text. The same holds for every context part joined by the separator. |
| Text.Join | app/bot.py:105 | Python's `sep.join(parts)`: the parts in order with the separator between neighbours. |
| Numbers.ParseIntRoundTrip | app/bot.py:104 | `int(str(n)) == n`: the id written into an instruction or a payload reads back as the same integer. |
| Numbers.IntToString | app/escalation.py:62 | Python's `str(int)` as an f-string writes an id: an optional `-` and decimal digits. `Numbers.ParseIntRoundTrip` reads it back. |
| Numbers.Fixed2 | app/rag/engine.py:83 | `:.2f` rendering has two digits after the point and a sign exactly for negative values. |
| Numbers.Fixed2Examples | app/bot.py:176 | Rounding is half-to-even on the exact value. For example, 0.125 renders as `0.12`, 0.375 as `0.38` and -0.001 as `-0.00`. |
| Numbers.Fixed2OfDoubleNearMidpoint | app/bot.py:176 | The double written 0.355 lies just below the midpoint and renders as `0.35`, as Python prints it. |

## Left out

- `cmd_start`, `cmd_help`, `cmd_status`, `cmd_human`, application setup, `main.py`, `ingest.py` and settings loading. None of them is part of the question/escalation core. The settings are fixed at their defaults: threshold 0.35, and the admin chat id as a parameter.
- The vector search itself, including `top_k`. The hits are an input, so the limit of 5 results is not enforced.
- The HTTP call to the completion service. Its content, or any failure, is an input (`Completion`).
- The system prompt text and the request parameters (model, temperature, token limit). They do not affect control flow.
- Logging, including the `:.3f` log line. Also `get_collection_count`, `close` and the engine singleton.
- Floating point: every score stands for the exact value of its double, and the threshold is the exact value of the double 0.35 (0.34999999999999997779553950749686919152736663818359375). NaN and infinities are not modelled.
- Numbers.Fixed2: a real has no negative zero, so a score of -0.0 renders as `0.00`, where Python writes `-0.00`.
- Bot.HandleCallback: reading `query.message.text` is assumed to give a string. The text is an input, so a missing or inaccessible message, which raises in the code before any edit, is not modelled.
- Concurrency: the handlers are modelled as sequences of actions, not as async code.
- The send inside `notify_user_escalated`. It swallows its own errors, so it is one `NotifyUser` action.
- Exceptions raised by `reply_text` or `send_chat_action` inside `handle_message`. The model assumes those calls return.
- A failing similarity search or engine construction. In the code an exception from the search (app/rag/engine.py:45-48) or from `get_engine()` (app/bot.py:155) is not caught. It escapes `handle_message` after the typing action, with no reply and no escalation. The model takes the hits as an input, so in the model every non-keyword message ends in a reply or an escalation.
- Telegram's splitting of a command into arguments, and the message text it delivers. Both are inputs.
- The `user_id` computed by `data.split(":")[1]` in `handle_callback`. It is never used. (For a payload with no colon after the prefix it could not fail anyway, because the prefix itself holds one.)
- The default reason `ثقة منخفضة في الإجابة` of `escalate_to_admin`. Every caller passes its own reason.
- Numbers.ParseInt: accepts ASCII, Arabic-Indic and Extended Arabic-Indic digits. It does not model Python's other Unicode decimal digits.

=== FILE: bot.dfy ===
/** The Telegram handlers as pure functions: each takes what its update
    carries (and the outcomes of the calls it makes) and returns the actions
    it performs, in order. */
module Bot {
  import opened Results
  import opened Text
  import opened Numbers
  import opened Engine
  import opened Escalation

  /** One effect of a handler on the chat. */
  datatype Action =
    | Typing                                  // the "typing" chat action
    | AskEngine(question: string)             // `engine.query(question)`
    | Reply(text: string)                     // a reply in the current chat
    | Escalate(question: string, context: string, reason: string)
                                              // `escalate_to_admin` for the sender
    | NotifyUser                              // `notify_user_escalated`
    | SendTo(chatId: int, text: string)       // `send_message` to another chat
    | AnswerCallback                          // `query.answer()`
    | EditNotice(text: string)                // `edit_message_text` on the notice

  const KeywordReason: string := "كلمة مفتاحية للتصعيد"

  /** The warning appended to an answer that is sent before escalating. */
  const PartialSuffix: string := "\n\n⚠️ <i>هذه الإجابة قد تكون غير مكتملة. سأحوّل سؤالك للمختص للتأكد.</i>"

  const UsageText: string := "⚠️ الاستخدام:\n<code>/reply USER_ID رسالتك</code>"
  const InvalidIdText: string := "❌ معرّف المستخدم غير صحيح"
  const SentText: string := "✅ تم إرسال الرد بنجاح"
  const FailedPrefix: string := "❌ فشل الإرسال: "
  const AdminReplyHeader: string := "💬 <b>رد من المختص:</b>\n\n"

  const ClosedMarker: string := "\n\n✅ <b>تم الرد والإغلاق</b>"
  const NoteMarker: string := "\n\n📌 <b>تم التعليق — بانتظار المتابعة</b>"

  // ---------------------------------------------------------------------
  // handle_message

  /** `max(similarity_scores) if similarity_scores else 0`. */
  function BestOrZero(scores: seq<real>): (b: real)
    ensures scores == [] ==> b == 0.0
    ensures scores != [] ==> b in scores && forall i | 0 <= i < |scores| :: scores[i] <= b
  {
    if scores == [] then 0.0 else MaxScore(scores)
  }

  /** The escalation reason after an unconfident answer: the level and the
      best score to two decimals. */
  function ConfidenceReason(result: RAGResult): string {
    "ثقة: " + result.confidence.Name() + " | أعلى تشابه: " + Fixed2(BestOrZero(result.similarityScores))
  }

  /** The text of a partial answer sent ahead of an escalation. */
  function PartialReply(answer: string): string {
    answer + PartialSuffix
  }

  /** What happens after the engine answered `question` with `result`: a
      confident answer is sent as it is; otherwise the question is escalated
      with the answer as context, the answer itself going out first only when
      it is non-empty and of medium confidence. */
  function AfterEngine(question: string, result: RAGResult): (acts: seq<Action>)
    ensures !result.needsEscalation ==> acts == [Reply(result.answer)]
    ensures result.needsEscalation ==>
      && 2 <= |acts| <= 3
      && acts[|acts| - 2] == Escalate(question, result.answer, ConfidenceReason(result))
      && acts[|acts| - 1] == NotifyUser
    ensures |acts| == 3 <==> result.needsEscalation && result.answer != "" && result.confidence == Medium
    ensures |acts| == 3 ==> acts[0] == Reply(PartialReply(result.answer))
  {
    if result.needsEscalation then
      (if result.answer != "" && result.confidence == Medium then [Reply(PartialReply(result.answer))] else [])
      + [Escalate(question, result.answer, ConfidenceReason(result)), NotifyUser]
    else
      [Reply(result.answer)]
  }

  /** The handler's decision for a non-blank stripped message `question`,
      `triggered` telling whether it holds an escalation keyword. */
  function Respond(question: string, triggered: bool, result: RAGResult): (acts: seq<Action>)
    ensures triggered ==> acts == [Escalate(question, "", KeywordReason), NotifyUser]
    // the engine is asked exactly when there is no keyword
    ensures |acts| >= 3 <==> !triggered
    ensures !triggered ==> acts[0] == Typing && acts[1] == AskEngine(question)
    ensures !triggered && !result.needsEscalation ==> acts == [Typing, AskEngine(question), Reply(result.answer)]
    ensures !triggered && result.needsEscalation ==>
      acts[|acts| - 2] == Escalate(question, result.answer, ConfidenceReason(result))
    ensures |acts| == 5 <==>
      !triggered && result.needsEscalation && result.answer != "" && result.confidence == Medium
    // every escalation is followed by the notice to the user, and nothing follows that
    ensures forall i | 0 <= i < |acts| :: acts[i].Escalate? ==> i == |acts| - 2 && acts[|acts| - 1] == NotifyUser
  {
    if triggered then [Escalate(question, "", KeywordReason), NotifyUser]
    else [Typing, AskEngine(question)] + AfterEngine(question, result)
  }

  /** `handle_message` for a message `text` whose engine query, if it is made,
      returns `result`. The message is stripped; an empty one is ignored;
      otherwise `Respond` decides, on whether a keyword occurs. The return
      value of `escalate_to_admin` is not looked at. */
  function HandleMessage(text: string, result: RAGResult): (acts: seq<Action>)
    ensures acts == [] <==> Strip(text) == []
    ensures acts != [] ==> acts == Respond(Strip(text), Triggers(Strip(text)), result)
  {
    var q := Strip(text);
    if q == [] then [] else Respond(q, Triggers(q), result)
  }

  /** A keyword anywhere in the raw message, blanks around it or not,
      escalates at once with the stripped message as the question. */
  lemma KeywordEscalatesAtOnce(text: string, result: RAGResult)
    ensures ContainsAny(text, Keywords) <==> Triggers(Strip(text))
    ensures ContainsAny(text, Keywords) ==>
      HandleMessage(text, result) == [Escalate(Strip(text), "", KeywordReason), NotifyUser]
  {
    StripIsIrrelevant(text);
    TriggersOfStripped(text);
    if ContainsAny(text, Keywords) {
      TriggerNeedsText(Strip(text));
      TriggeredMessage(text, result);
    }
  }

  /** Only a non-blank message can hold a keyword. */
  lemma TriggerNeedsText(m: string)
    requires Triggers(m)
    ensures Strip(m) != []
  {
    var k :| 0 <= k < |Keywords| && Contains(Strip(m), Keywords[k]);
    KeywordsAreTrimmed(k);
  }

  /** A triggering message goes straight to the admin. Unfolds
      `HandleMessage` for `KeywordEscalatesAtOnce`, kept apart so the keyword
      list stays out of that proof. */
  lemma TriggeredMessage(text: string, result: RAGResult)
    requires Strip(text) != [] && Triggers(Strip(text))
    ensures HandleMessage(text, result) == [Escalate(Strip(text), "", KeywordReason), NotifyUser]
  {
  }

  /** Any other non-blank message is put to the engine. Unfolds
      `HandleMessage` for `PartialReplyBranch`. */
  lemma UntriggeredMessage(text: string, result: RAGResult)
    requires Strip(text) != [] && !Triggers(Strip(text))
    ensures HandleMessage(text, result) == [Typing, AskEngine(Strip(text))] + AfterEngine(Strip(text), result)
  {
  }

  /** The whole of `handle_message` with the engine's search hits and
      completion outcome as inputs. */
  function HandleMessageWithEngine(text: string, hits: seq<Hit>, reply: Completion): seq<Action> {
    HandleMessage(text, Query(Strip(text), hits, reply))
  }

  /** For a result that escalates only low-confidence answers, the bot
      either sends the answer alone or escalates it without replying first. */
  lemma ConfidentOrEscalated(text: string, r: RAGResult)
    requires r.needsEscalation ==> r.confidence == Low
    ensures var q := Strip(text);
      q != [] && !Triggers(q) && r.needsEscalation ==>
        HandleMessage(text, r) == [Typing, AskEngine(q), Escalate(q, r.answer, ConfidenceReason(r)), NotifyUser]
    ensures var q := Strip(text);
      q != [] && !Triggers(q) && !r.needsEscalation ==>
        HandleMessage(text, r) == [Typing, AskEngine(q), Reply(r.answer)]
  {
    var q := Strip(text);
    if q != [] && !Triggers(q) {
      LowOnlyRespond(q, r);
      assert HandleMessage(text, r) == Respond(q, false, r);
    }
  }

  /** With escalation flagged only at `low`, the warned partial answer never
      goes out: the answer is sent alone or the question is escalated. */
  lemma LowOnlyRespond(q: string, r: RAGResult)
    requires r.needsEscalation ==> r.confidence == Low
    ensures Respond(q, false, r) ==
      if r.needsEscalation then [Typing, AskEngine(q), Escalate(q, r.answer, ConfidenceReason(r)), NotifyUser]
      else [Typing, AskEngine(q), Reply(r.answer)]
  {
  }

  /** The engine never reports a medium-confidence answer as needing
      escalation, so the partial-answer branch of `handle_message` is dead
      code once the real engine supplies the result. */
  lemma PartialReplyUnreachable(text: string, hits: seq<Hit>, reply: Completion)
    ensures var q := Strip(text);
      var r := Query(q, hits, reply);
      q != [] && !Triggers(q) ==>
        HandleMessageWithEngine(text, hits, reply) ==
          if r.needsEscalation then [Typing, AskEngine(q), Escalate(q, r.answer, ConfidenceReason(r)), NotifyUser]
          else [Typing, AskEngine(q), Reply(r.answer)]
  {
    ConfidentOrEscalated(text, Query(Strip(text), hits, reply));
  }

  /** The branch itself does what it says for a result the engine does not
      produce: a non-empty medium answer flagged for escalation is sent with
      the warning, then escalated with the answer as context. */
  lemma PartialReplyBranch(q: string, answer: string, scores: seq<real>)
    requires q != [] && !IsSpace(q[0]) && !IsSpace(q[|q| - 1])
    requires !ContainsAny(q, Keywords)
    requires answer != ""
    ensures var r := RAGResult(answer, Medium, [], scores, true);
      HandleMessage(q, r) ==
        [ Typing, AskEngine(q), Reply(answer + PartialSuffix),
          Escalate(q, answer, "ثقة: " + "medium" + " | أعلى تشابه: " + Fixed2(BestOrZero(scores))), NotifyUser ]
  {
    var r := RAGResult(answer, Medium, [], scores, true);
    StripUnchanged(q);
    StripIsIrrelevant(q);
    UntriggeredMessage(q, r);
    MediumReason(r);
    PartialAfterEngine(q, r);
  }

  /** Unfolds the reason for a `medium` result, for `PartialReplyBranch`. */
  lemma MediumReason(r: RAGResult)
    requires r.confidence == Medium
    ensures ConfidenceReason(r) == "ثقة: " + "medium" + " | أعلى تشابه: " + Fixed2(BestOrZero(r.similarityScores))
  {
  }

  /** Unfolds `AfterEngine` on the partial-answer branch, for
      `PartialReplyBranch`. */
  lemma PartialAfterEngine(q: string, r: RAGResult)
    requires r.needsEscalation && r.answer != "" && r.confidence == Medium
    ensures [Typing, AskEngine(q)] + AfterEngine(q, r) ==
      [Typing, AskEngine(q), Reply(r.answer + PartialSuffix), Escalate(q, r.answer, ConfidenceReason(r)), NotifyUser]
  {
  }

  /** Whatever the engine would have said, a keyword message is escalated
      with the keyword reason and the stripped message as question. */
  lemma KeywordBypassesEngine(text: string, hits: seq<Hit>, reply: Completion, k: nat)
    requires k < |Keywords| && Contains(text, Keywords[k])
    ensures HandleMessageWithEngine(text, hits, reply) == [Escalate(Strip(text), "", KeywordReason), NotifyUser]
  {
    assert ContainsAny(text, Keywords);
    KeywordEscalatesAtOnce(text, Query(Strip(text), hits, reply));
  }

  /** The escalation raised by `handle_message` is about the stripped
      message, and the notice built from it quotes that message. */
  lemma EscalationQuotesQuestion(q: string, triggered: bool, result: RAGResult, user: User, i: nat)
    requires i < |Respond(q, triggered, result)| && Respond(q, triggered, result)[i].Escalate?
    ensures var a := Respond(q, triggered, result)[i];
      && a.question == q
      && Contains(NoticeText(user, a.question, a.context, a.reason), q)
  {
    var a := Respond(q, triggered, result)[i];
    NoticeMentions(user, a.question, a.context, a.reason);
  }

  // ---------------------------------------------------------------------
  // cmd_reply

  /** The sending part of `cmd_reply`: the words, joined by single spaces
      under the specialist header, go to chat `target`. `delivery` is the
      outcome of that send and `confirm` that of the "sent" confirmation;
      both sit in one `try`, so a failing confirmation is itself reported as
      a failed send. */
  function Forward(target: int, words: seq<string>, delivery: SendResult, confirm: SendResult): (acts: seq<Action>)
    ensures 2 <= |acts| <= 3
    // the words reach the target, in full and under the header
    ensures acts[0].SendTo? && acts[0].chatId == target
    ensures acts[0].text == AdminReplyHeader + Join(words, " ")
    ensures StartsWith(acts[0].text, AdminReplyHeader)
    ensures forall k | 0 <= k < |words| :: Contains(acts[0].text, words[k])
    // the admin hears of success only when the send went through
    ensures acts[1] == Reply(SentText) <==> delivery == Sent
    ensures delivery.Raised? ==> acts[1..] == [Reply(FailedPrefix + delivery.error)]
    ensures |acts| == 3 <==> delivery == Sent && confirm.Raised?
    ensures |acts| == 3 ==> acts[2] == Reply(FailedPrefix + confirm.error)
    // one message to the user; everything else answers the admin
    ensures forall i | 1 <= i < |acts| :: acts[i].Reply?
  {
    var body := Join(words, " ");
    AdminReplyBodyMentions(words);
    assert forall e :: (FailedPrefix + e)[0] != SentText[0];
    [SendTo(target, AdminReplyHeader + body)]
    + (match delivery
       case Raised(e) => [Reply(FailedPrefix + e)]
       case Sent =>
         [Reply(SentText)] + (match confirm
           case Sent => []
           case Raised(e) => [Reply(FailedPrefix + e)]))
  }

  /** Every word is part of the forwarded text. */
  lemma AdminReplyBodyMentions(words: seq<string>)
    ensures StartsWith(AdminReplyHeader + Join(words, " "), AdminReplyHeader)
    ensures forall k | 0 <= k < |words| :: Contains(AdminReplyHeader + Join(words, " "), words[k])
  {
    var body := Join(words, " ");
    assert (AdminReplyHeader + body)[..|AdminReplyHeader|] == AdminReplyHeader;
    forall k | 0 <= k < |words|
      ensures Contains(AdminReplyHeader + body, words[k])
    {
      JoinContainsPart(words, " ", k);
      ContainsInfix(AdminReplyHeader, body, "");
      assert AdminReplyHeader + body + "" == AdminReplyHeader + body;
      ContainsTransitive(AdminReplyHeader + body, body, words[k]);
    }
  }

  /** `cmd_reply` as run by `senderId` with the command's whitespace-split
      arguments `args`: silent for anyone but the admin, usage help for fewer
      than two arguments, an error for an id `int()` rejects, and otherwise
      the rest of the arguments forwarded to that id. */
  function CmdReply(senderId: int, adminChatId: int, args: seq<string>, delivery: SendResult, confirm: SendResult): (acts: seq<Action>)
    ensures senderId != adminChatId ==> acts == []
    ensures senderId == adminChatId && |args| < 2 ==> acts == [Reply(UsageText)]
    ensures senderId == adminChatId && |args| >= 2 && ParseInt(args[0]) == None ==> acts == [Reply(InvalidIdText)]
    ensures senderId == adminChatId && |args| >= 2 && ParseInt(args[0]).Some? ==>
      acts == Forward(ParseInt(args[0]).value, args[1..], delivery, confirm)
  {
    if senderId != adminChatId then []
    else if |args| < 2 then [Reply(UsageText)]
    else
      match ParseInt(args[0])
      case None => [Reply(InvalidIdText)]
      case Some(target) => Forward(target, args[1..], delivery, confirm)
  }

  /** Following the notice's instruction works: when the admin types
      `/reply <id>` as shown in the notice for `user`, followed by at least
      one word, the words go to that user's chat. */
  lemma ReplyInstructionReachesUser(adminChatId: int, user: User, words: seq<string>, delivery: SendResult, confirm: SendResult)
    requires words != []
    ensures var acts := CmdReply(adminChatId, adminChatId, [IntToString(user.id)] + words, delivery, confirm);
      && acts != [] && acts[0].SendTo? && acts[0].chatId == user.id
      && StartsWith(ReplyCommand(user.id), "/reply ")
      && ReplyCommand(user.id)[|"/reply "|..] == IntToString(user.id)
  {
    ParseIntRoundTrip(user.id);
    var args := [IntToString(user.id)] + words;
    assert args[0] == IntToString(user.id);
  }

  // ---------------------------------------------------------------------
  // handle_callback

  /** `handle_callback` for button payload `data` pressed under a notice whose
      current text is `noticeText`, `ack` being the outcome of the
      acknowledgement. The press is always acknowledged; a failed
      acknowledgement ends the handler there, and otherwise a `resolved:` or
      `note:` payload appends its marker to the notice. */
  function HandleCallback(data: string, noticeText: string, ack: SendResult): (acts: seq<Action>)
    ensures 1 <= |acts| <= 2 && acts[0] == AnswerCallback
    ensures ack.Raised? ==> acts == [AnswerCallback]
    ensures |acts| == 2 <==> ack == Sent && (StartsWith(data, ResolvedPrefix) || StartsWith(data, NotePrefix))
    ensures ack == Sent && StartsWith(data, ResolvedPrefix) ==> acts[1..] == [EditNotice(noticeText + ClosedMarker)]
    ensures ack == Sent && !StartsWith(data, ResolvedPrefix) && StartsWith(data, NotePrefix) ==>
      acts[1..] == [EditNotice(noticeText + NoteMarker)]
    // an edit keeps the notice and only appends to it
    ensures |acts| == 2 ==> acts[1].EditNotice? && StartsWith(acts[1].text, noticeText)
  {
    [AnswerCallback]
    + (if ack.Raised? then []
       else if StartsWith(data, ResolvedPrefix) then [EditNotice(noticeText + ClosedMarker)]
       else if StartsWith(data, NotePrefix) then [EditNotice(noticeText + NoteMarker)]
       else [])
  }

  /** Once acknowledged, the two buttons of a notice lead to the two
      different markers. */
  lemma ButtonsDispatch(userId: int, noticeText: string)
    ensures var row := NoticeButtons(userId);
      && HandleCallback(row[0].data, noticeText, Sent) == [AnswerCallback, EditNotice(noticeText + ClosedMarker)]
      && HandleCallback(row[1].data, noticeText, Sent) == [AnswerCallback, EditNotice(noticeText + NoteMarker)]
      && ClosedMarker != NoteMarker
  {
    var id := IntToString(userId);
    PrefixStarts(ResolvedPrefix, id);
    PrefixStarts(NotePrefix, id);
    assert (NotePrefix + id)[0] != ResolvedPrefix[0];
    MarkersDiffer();
  }

  lemma MarkersDiffer()
    ensures ClosedMarker != NoteMarker
  {
    assert ClosedMarker[2] != NoteMarker[2];
  }
}

=== FILE: engine.dfy ===
/** The retrieval-answer engine: from the hits of a similarity search and the
    outcome of one completion call to a `RAGResult`, including the parsing of
    the `CONFIDENCE: high|medium|low` tag out of the generated text.

    The vector search and the HTTP completion are inputs: `hits` is what the
    search returned (best first), `reply` is what the completion produced. */
module Engine {
  import opened Results
  import opened Text
  import opened Numbers

  /** The default `similarity_threshold` setting, 0.35, as the exact value
      of the double that literal denotes. Every score likewise stands for
      the exact value of its double. */
  const SimilarityThreshold: real := 0.34999999999999997779553950749686919152736663818359375

  datatype Confidence = High | Medium | Low {
    /** The level's spelling in results and in the tag. */
    function Name(): string {
      match this
      case High => "high"
      case Medium => "medium"
      case Low => "low"
    }
  }

  /** The literal the model is told to end its answer with. */
  function Tag(level: Confidence): string {
    "CONFIDENCE: " + level.Name()
  }

  /** One search hit: a chunk's text, the `source` entry of its metadata if
      present, and its relevance score. */
  datatype Hit = Hit(content: string, source: Option<string>, score: real)

  datatype RAGResult = RAGResult(
    answer: string,
    confidence: Confidence,
    sources: seq<string>,
    similarityScores: seq<real>,
    needsEscalation: bool)

  /** Outcome of the completion call: the message content, or any exception
      (network error, non-2xx status, malformed JSON, missing fields). */
  datatype Completion = Completed(content: string) | Failed

  /** An answer text with its confidence level. */
  datatype Graded = Graded(answer: string, confidence: Confidence)

  const NoInfoApology: string := "عذراً، لم أتمكن من إيجاد معلومات كافية للإجابة على سؤالك."
  const ErrorApology: string := "حدث خطأ أثناء معالجة سؤالك. يرجى المحاولة لاحقاً."
  const UnknownSource: string := "غير محدد"
  const PartSeparator: string := "\n\n---\n\n"

  // ---------------------------------------------------------------------
  // Confidence tag

  /** The confidence of an (already stripped) reply: `high` whenever its tag
      occurs, `medium` when its tag occurs and `high`'s does not, `low` only
      when it is the sole tag present, and `medium` when no tag occurs. */
  function ParseConfidence(full: string): (g: Graded)
    ensures g.confidence == High <==> Contains(full, Tag(High))
    ensures g.confidence == Low <==>
      !Contains(full, Tag(High)) && !Contains(full, Tag(Medium)) && Contains(full, Tag(Low))
    ensures g.confidence == Medium <==>
      !Contains(full, Tag(High)) && (Contains(full, Tag(Medium)) || !Contains(full, Tag(Low)))
    ensures Contains(full, Tag(g.confidence)) ==>
      g.answer == Strip(ReplaceAll(full, Tag(g.confidence), ""))
    ensures !Contains(full, Tag(g.confidence)) ==> g == Graded(full, Medium)
  {
    // the search loop over `high`, `medium`, `low`, unrolled
    if Contains(full, Tag(High)) then Graded(Strip(ReplaceAll(full, Tag(High), "")), High)
    else if Contains(full, Tag(Medium)) then Graded(Strip(ReplaceAll(full, Tag(Medium), "")), Medium)
    else if Contains(full, Tag(Low)) then Graded(Strip(ReplaceAll(full, Tag(Low), "")), Low)
    else Graded(full, Medium)
  }

  /** The reply content is stripped before the tag is looked for. Tags have
      no whitespace at their ends, so the stripping never hides or reveals
      one: the level is decided by the tags of the raw reply. */
  function ParseReply(content: string): (g: Graded)
    ensures g.confidence == High <==> Contains(content, Tag(High))
    ensures g.confidence == Low <==>
      !Contains(content, Tag(High)) && !Contains(content, Tag(Medium)) && Contains(content, Tag(Low))
  {
    TagSurvivesStrip(content, High);
    TagSurvivesStrip(content, Medium);
    TagSurvivesStrip(content, Low);
    ParseConfidence(Strip(content))
  }

  /** A tag occurs in a text exactly when it occurs in the stripped text. */
  lemma TagSurvivesStrip(content: string, l: Confidence)
    ensures Contains(Strip(content), Tag(l)) <==> Contains(content, Tag(l))
  {
    TagEnds(l);
    if Contains(content, Tag(l)) {
      TrimmedOccurrenceSurvivesStrip(content, Tag(l));
    }
    if Contains(Strip(content), Tag(l)) {
      StripContained(content);
      ContainsTransitive(content, Strip(content), Tag(l));
    }
  }

  /** The parsed answer never carries surrounding whitespace; when a tag was
      found the answer is at least one tag shorter than the stripped reply,
      and when none was found it is the stripped reply itself. */
  lemma ParsedAnswerShape(content: string)
    ensures var g := ParseReply(content);
      && Strip(g.answer) == g.answer
      && (Contains(Strip(content), Tag(g.confidence)) ==>
            |g.answer| <= |Strip(content)| - |Tag(g.confidence)|)
      && (!Contains(Strip(content), Tag(g.confidence)) ==>
            g.answer == Strip(content) && g.confidence == Medium)
  {
    var full := Strip(content);
    var g := ParseReply(content);
    if Contains(full, Tag(g.confidence)) {
      var removed := ReplaceAll(full, Tag(g.confidence), "");
      RemoveShrinks(full, Tag(g.confidence));
      var lo, hi := StripWindow(removed);
      StripIdempotent(removed);
    } else {
      StripIdempotent(content);
    }
  }

  /** One tag occurs inside another only as the whole of it. */
  lemma TagInsideTag(l: Confidence, m: Confidence, d: int)
    ensures OccursAt(Tag(m), Tag(l), d) ==> d == 0 && l == m
  {
    var t, u := Tag(m), Tag(l);
    if 0 < d <= |t| - |u| {
      assert t[d] != 'C';
      assert t[d..d + |u|][0] != u[0];
    } else if d == 0 && l != m && |u| <= |t| {
      assert t[12] != u[12];
      assert t[..|u|][12] != u[12];
    }
  }

  lemma NoLineBreakInTag(l: Confidence, j: int)
    requires 0 <= j < |Tag(l)|
    ensures Tag(l)[j] != '\n'
  {
  }

  /** In `answer + "\n" + tag`, with no tag inside `answer`, the only tag
      occurrence is the appended one. */
  lemma TagOnlyAtEnd(answer: string, level: Confidence, l: Confidence, i: int)
    requires !Contains(answer, Tag(l))
    ensures OccursAt(answer + "\n" + Tag(level), Tag(l), i) ==> i == |answer| + 1 && l == level
  {
    var s := answer + "\n" + Tag(level);
    var t := Tag(l);
    var n := |answer|;
    assert |s| == n + 1 + |Tag(level)|;
    if 0 <= i && i + |t| <= n {
      OccurrenceInFirst(answer, "\n", Tag(level), t, i);
    } else if 0 <= i <= n < i + |t| <= |s| {
      NoLineBreakInTag(l, n - i);
      OccurrenceAcross(answer, '\n', Tag(level), t, i);
    } else if n < i && i + |t| <= |s| {
      OccurrenceInLast(answer, "\n", Tag(level), t, i);
      TagInsideTag(l, level, i - n - 1);
    }
  }

  /** The reply format the model is asked for parses back: an answer free
      of tags and of surrounding whitespace, a line break, and the tag of
      `level`, yield that answer with that level. */
  lemma TaggedReplyRoundTrip(answer: string, level: Confidence)
    requires Strip(answer) == answer
    requires forall k: Confidence :: !Contains(answer, Tag(k))
    ensures ParseReply(answer + "\n" + Tag(level)) == Graded(answer, level)
  {
    if answer == [] {
      EmptyTaggedReply(answer, level);
    } else {
      TaggedAnswerReply(answer, level);
    }
  }

  /** A reply that is only a line break and a tag: empty answer. */
  lemma EmptyTaggedReply(answer: string, level: Confidence)
    requires answer == []
    ensures ParseReply(answer + "\n" + Tag(level)) == Graded(answer, level)
  {
    assert answer + "\n" + Tag(level) == ['\n'] + Tag(level);
    TagEnds(level);
    StripLeadingSpace('\n', Tag(level));
    BareTag(level);
  }

  /** A bare tag parses to its level with nothing left as the answer. */
  lemma BareTag(level: Confidence)
    ensures ParseReply(Tag(level)) == Graded([], level)
  {
    TagEnds(level);
    StripUnchanged(Tag(level));
    BareTagParses(level);
  }

  lemma BareTagParses(level: Confidence)
    ensures ParseConfidence(Tag(level)) == Graded([], level)
  {
    var x: string := [];
    assert x + Tag(level) == Tag(level);
    forall l: Confidence, i: int
      ensures OccursAt(x + Tag(level), Tag(l), i) ==> i == 0 && l == level
    {
      TagInsideTag(l, level, i);
    }
    ParseTaggedText(x, level);
    StripUnchanged(x);
  }

  /** Parsing is not idempotent: a reply carrying the `high` tag and then
      the `low` tag parses to `high` with the `low` tag left in the answer,
      and parsing that answer again yields `low` and an empty answer. */
  lemma ParseIsNotIdempotent()
    ensures var once := ParseReply(Tag(High) + " " + Tag(Low));
      && once == Graded(Tag(Low), High)
      && ParseReply(once.answer) == Graded([], Low)
  {
    HighThenLow();
    BareTag(Low);
  }

  lemma HighThenLow()
    ensures ParseReply(Tag(High) + " " + Tag(Low)) == Graded(Tag(Low), High)
  {
    TwoTagsStripped(High, Low);
    TwoTagsHaveFirst(High, Low);
    HighTagWins(Tag(High) + " " + Tag(Low));
    HighRemoved();
  }

  /** Two tags separated by a blank need no stripping, and the first occurs. */
  lemma TwoTagsStripped(a: Confidence, b: Confidence)
    ensures Strip(Tag(a) + " " + Tag(b)) == Tag(a) + " " + Tag(b)
  {
    TagEnds(a);
    TagEnds(b);
    StripAround(Tag(a), " ", Tag(b));
  }

  lemma TwoTagsHaveFirst(a: Confidence, b: Confidence)
    ensures Contains(Tag(a) + " " + Tag(b), Tag(a))
  {
    ContainsFirst(Tag(a), " ", Tag(b));
  }

  /** The `high` tag wins wherever it occurs. Unfolds `ParseReply` for the
      two concrete replies of `HighThenLow` and `EveryTagCopyRemoved`. */
  lemma HighTagWins(content: string)
    requires Strip(content) == content && Contains(content, Tag(High))
    ensures ParseReply(content) == Graded(Strip(ReplaceAll(content, Tag(High), "")), High)
  {
  }

  /** Removing the `high` tag leaves the blank and the `low` tag, which then
      strips to the bare `low` tag. */
  lemma HighRemoved()
    ensures Strip(ReplaceAll(Tag(High) + " " + Tag(Low), Tag(High), "")) == Tag(Low)
  {
    var rest := [' '] + Tag(Low);
    var full := Tag(High) + " " + Tag(Low);
    assert full == Tag(High) + rest;
    assert ReplaceAll(full, Tag(High), "") == "" + ReplaceAll(rest, Tag(High), "") by {
      assert full[..|Tag(High)|] == Tag(High);
      assert full[|Tag(High)|..] == rest;
    }
    assert !Contains(rest, Tag(High)) by {
      assert !OccursAt(rest, Tag(High), 0) by {
        assert rest[0] != Tag(High)[0];
      }
    }
    ReplaceAbsent(rest, Tag(High), "");
    assert ReplaceAll(full, Tag(High), "") == rest;
    TagEnds(Low);
    StripLeadingSpace(' ', Tag(Low));
  }

  /** Every copy of the winning tag is removed, not only the first: a reply
      holding the `high` tag twice parses to `high` with an empty answer. */
  lemma EveryTagCopyRemoved()
    ensures ParseReply(Tag(High) + " " + Tag(High)) == Graded([], High)
  {
    TwoTagsStripped(High, High);
    TwoTagsHaveFirst(High, High);
    HighTagWins(Tag(High) + " " + Tag(High));
    BothHighCopiesRemoved();
  }

  lemma BothHighCopiesRemoved()
    ensures Strip(ReplaceAll(Tag(High) + " " + Tag(High), Tag(High), "")) == []
  {
    assert Tag(High) + " " + Tag(High) == Tag(High) + [' '] + Tag(High);
    ReplaceBothCopies(Tag(High), ' ');
    assert TrimStart([' ']) == [];
  }

  lemma TaggedAnswerReply(answer: string, level: Confidence)
    requires answer != [] && Strip(answer) == answer
    requires forall k: Confidence :: !Contains(answer, Tag(k))
    ensures ParseReply(answer + "\n" + Tag(level)) == Graded(answer, level)
  {
    TaggedTextParses(answer, level);
    TaggedReplyIsStripped(answer, level);
    StripNewline(answer);
  }

  lemma TaggedReplyIsStripped(answer: string, level: Confidence)
    requires answer != [] && Strip(answer) == answer
    ensures Strip(answer + "\n" + Tag(level)) == answer + "\n" + Tag(level)
  {
    TagEnds(level);
    StrippedEnds(answer);
    StripAround(answer, "\n", Tag(level));
  }

  lemma TaggedTextParses(answer: string, level: Confidence)
    requires forall k: Confidence :: !Contains(answer, Tag(k))
    ensures ParseConfidence(answer + "\n" + Tag(level)) == Graded(Strip(answer + "\n"), level)
  {
    var x := answer + "\n";
    forall l: Confidence, i: int
      ensures OccursAt(x + Tag(level), Tag(l), i) ==> i == |x| && l == level
    {
      TagOnlyAtEnd(answer, level, l, i);
    }
    ParseTaggedText(x, level);
  }

  /** A text whose only tag is the one of `level` at its end parses to that
      level, with the text before the tag as the answer. */
  lemma ParseTaggedText(x: string, level: Confidence)
    requires forall l: Confidence, i: int :: OccursAt(x + Tag(level), Tag(l), i) ==> i == |x| && l == level
    ensures ParseConfidence(x + Tag(level)) == Graded(Strip(x), level)
  {
    var full := x + Tag(level);
    assert OccursAt(full, Tag(level), |x|);
    forall l: Confidence | l != level
      ensures !Contains(full, Tag(l))
    {
    }
    forall i | 0 <= i < |x|
      ensures !OccursAt(full, Tag(level), i)
    {
    }
    ReplaceSuffix(x, Tag(level), "");
    assert x + "" == x;
  }

  lemma TagEnds(level: Confidence)
    ensures |Tag(level)| >= 15
    ensures !IsSpace(Tag(level)[0]) && !IsSpace(Tag(level)[|Tag(level)| - 1])
  {
  }

  /** A stripped answer followed by a line break strips back to itself. */
  lemma StripNewline(answer: string)
    requires Strip(answer) == answer
    ensures Strip(answer + "\n") == answer
  {
    StripTrailingSpace(answer, '\n');
  }

  /** The `try`/`except` around the completion call: any failure becomes the
      fixed apology with confidence `low`; a completed call is parsed. The
      level is `low` exactly when the call failed or `low` is the only tag
      in the generated text. */
  function GenerateAnswer(reply: Completion): (g: Graded)
    ensures reply.Failed? ==> g == Graded(ErrorApology, Low)
    ensures reply.Completed? ==> g == ParseReply(reply.content)
    ensures g.confidence == Low <==>
      || reply.Failed?
      || (&& !Contains(reply.content, Tag(High)) && !Contains(reply.content, Tag(Medium))
          && Contains(reply.content, Tag(Low)))
  {
    match reply
    case Completed(content) => ParseReply(content)
    case Failed => Graded(ErrorApology, Low)
  }

  // ---------------------------------------------------------------------
  // Context block

  /** The metadata's `source`, or `غير محدد` when it has none. */
  function SourceName(h: Hit): string {
    match h.source
    case Some(name) => name
    case None => UnknownSource
  }

  /** The header line of a context part. */
  function PartHeader(number: nat, h: Hit): string {
    "[مقطع " + NatToString(number) + " | المصدر: " + SourceName(h) + " | التشابه: " + Fixed2(h.score) + "]\n"
  }

  /** The header names the hit's number and its source, `غير محدد` when the
      metadata has none. */
  lemma PartHeaderNamesSource(number: nat, h: Hit)
    ensures Contains(PartHeader(number, h), NatToString(number))
    ensures Contains(PartHeader(number, h), SourceName(h))
    ensures h.source == None ==> SourceName(h) == UnknownSource
    ensures h.source.Some? ==> SourceName(h) == h.source.value
  {
    var a, b, rest := "[مقطع ", " | المصدر: ", " | التشابه: " + Fixed2(h.score) + "]\n";
    assert PartHeader(number, h) == a + NatToString(number) + b + SourceName(h) + rest;
    FramedPieces(a, NatToString(number), b, SourceName(h), rest);
  }

  /** One context part: the header line, then the hit's text. */
  function Part(number: nat, h: Hit): string {
    PartHeader(number, h) + h.content
  }

  /** The context parts of `hits`, numbered consecutively from `first`. */
  function NumberedParts(hits: seq<Hit>, first: nat): (parts: seq<string>)
    ensures |parts| == |hits|
    ensures forall i | 0 <= i < |hits| :: parts[i] == Part(first + i, hits[i])
  {
    seq(|hits|, i requires 0 <= i < |hits| => Part(first + i, hits[i]))
  }

  /** The context handed to the model: one part per hit, numbered from 1. */
  function ContextBlock(hits: seq<Hit>): string {
    Join(NumberedParts(hits, 1), PartSeparator)
  }

  /** Every hit's text appears in the context under its header, whose number
      is its position counted from 1. */
  lemma ContextMentionsEveryHit(hits: seq<Hit>, i: nat)
    requires i < |hits|
    ensures Contains(ContextBlock(hits), Part(i + 1, hits[i]))
    ensures Contains(ContextBlock(hits), hits[i].content)
  {
    var parts := NumberedParts(hits, 1);
    JoinContainsPart(parts, PartSeparator, i);
    ContainsSuffix(PartHeader(i + 1, hits[i]), hits[i].content);
    ContainsTransitive(ContextBlock(hits), parts[i], hits[i].content);
  }

  /** Parts follow retrieval order: one more hit appends one separator and
      the new hit's part, numbered after all earlier ones. */
  lemma ContextAppend(hits: seq<Hit>, h: Hit)
    requires hits != []
    ensures ContextBlock(hits + [h]) ==
      ContextBlock(hits) + PartSeparator + Part(|hits| + 1, h)
  {
    var parts := NumberedParts(hits + [h], 1);
    var init := NumberedParts(hits, 1);
    assert parts[..|parts| - 1] == init by {
      forall i | 0 <= i < |hits|
        ensures parts[i] == init[i]
      {
        assert (hits + [h])[i] == hits[i];
      }
    }
    assert parts[|parts| - 1] == Part(|hits| + 1, h) by {
      assert (hits + [h])[|hits|] == h;
    }
  }

  /** The user message sent with the context. */
  function UserPrompt(question: string, context: string): (p: string)
    ensures Contains(p, context) && Contains(p, question)
  {
    var head := "## السياق من قاعدة المعرفة:\n";
    var middle := "\n\n## سؤال المستخدم:\n";
    var tail := "\n\nأجب على السؤال بناءً على السياق أعلاه فقط.";
    FramedPieces(head, context, middle, question, tail);
    head + context + middle + question + tail
  }

  // ---------------------------------------------------------------------
  // Query

  function Contents(hits: seq<Hit>): (r: seq<string>)
    ensures |r| == |hits| && forall i | 0 <= i < |hits| :: r[i] == hits[i].content
  {
    seq(|hits|, i requires 0 <= i < |hits| => hits[i].content)
  }

  function Scores(hits: seq<Hit>): (r: seq<real>)
    ensures |r| == |hits| && forall i | 0 <= i < |hits| :: r[i] == hits[i].score
  {
    seq(|hits|, i requires 0 <= i < |hits| => hits[i].score)
  }

  /** Python's `max` over a non-empty list: a left-to-right scan that keeps
      the larger value. The result is one of the scores and bounds them all. */
  function MaxScore(scores: seq<real>): (m: real)
    requires scores != []
    ensures m in scores
    ensures forall i | 0 <= i < |scores| :: scores[i] <= m
  {
    if |scores| == 1 then scores[0]
    else
      var m := MaxScore(scores[..|scores| - 1]);
      assert forall i | 0 <= i < |scores| - 1 :: scores[i] == scores[..|scores| - 1][i];
      if scores[|scores| - 1] > m then scores[|scores| - 1] else m
  }

  /** What the engine does before any completion call: finish at once, or
      ask for a completion with this prompt. */
  datatype Step = Done(result: RAGResult) | Generate(prompt: string)

  /** The decision part of `query`. A completion is requested exactly when
      some hit reaches the threshold; the prompt then carries the question
      and the context block. */
  function Plan(question: string, hits: seq<Hit>): (s: Step)
    ensures s.Generate? <==> exists i | 0 <= i < |hits| :: hits[i].score >= SimilarityThreshold
    ensures s.Generate? ==> s.prompt == UserPrompt(question, ContextBlock(hits))
  {
    if hits == [] then
      Done(RAGResult("", Low, [], [], true))
    else
      ReachesThreshold(hits);
      if MaxScore(Scores(hits)) < SimilarityThreshold then
        Done(RAGResult(NoInfoApology, Low, Contents(hits), Scores(hits), true))
      else
        Generate(UserPrompt(question, ContextBlock(hits)))
  }

  /** The best score reaches the threshold exactly when some hit does. */
  lemma ReachesThreshold(hits: seq<Hit>)
    requires hits != []
    ensures MaxScore(Scores(hits)) >= SimilarityThreshold <==>
      exists i | 0 <= i < |hits| :: hits[i].score >= SimilarityThreshold
  {
    var scores := Scores(hits);
    if MaxScore(scores) >= SimilarityThreshold {
      var i :| 0 <= i < |scores| && scores[i] == MaxScore(scores);
      assert hits[i].score >= SimilarityThreshold;
    }
  }

  /** `RAGEngine.query` given the search hits and the completion outcome. */
  function Query(question: string, hits: seq<Hit>, reply: Completion): (r: RAGResult)
    // no hits: empty low-confidence answer, nothing attached
    ensures hits == [] ==> r == RAGResult("", Low, [], [], true)
    // below the threshold: the fixed apology
    ensures hits != [] && (forall i | 0 <= i < |hits| :: hits[i].score < SimilarityThreshold) ==>
      r.answer == NoInfoApology && r.confidence == Low
    // the hits are attached in retrieval order on every other path
    ensures |r.sources| == |r.similarityScores| == |hits|
    ensures forall i | 0 <= i < |hits| :: r.sources[i] == hits[i].content && r.similarityScores[i] == hits[i].score
    // a failed completion degrades to the fixed error apology
    ensures Plan(question, hits).Generate? && reply.Failed? ==>
      r.answer == ErrorApology && r.confidence == Low
    // a successful completion is parsed for its tag
    ensures Plan(question, hits).Generate? && reply.Completed? ==>
      Graded(r.answer, r.confidence) == ParseReply(reply.content)
    // escalation is requested exactly for low confidence, on every path
    ensures r.needsEscalation <==> r.confidence == Low
  {
    match Plan(question, hits)
    case Done(result) => result
    case Generate(_) =>
      var g := GenerateAnswer(reply);
      RAGResult(g.answer, g.confidence, Contents(hits), Scores(hits), g.confidence == Low)
  }

  /** A hit whose score is the double 0.35 itself is not below the
      threshold, so a completion is requested. */
  lemma ThresholdScoreGenerates(question: string)
    ensures Plan(question, [Hit("x", None, 0.34999999999999997779553950749686919152736663818359375)]).Generate?
  {
    var hits := [Hit("x", None, 0.34999999999999997779553950749686919152736663818359375)];
    assert hits[0].score >= SimilarityThreshold;
  }

  /** Without a hit at or above the threshold no completion is requested:
      the result is the same whatever the completion would have returned. */
  lemma NoCompletionBelowThreshold(question: string, hits: seq<Hit>, reply1: Completion, reply2: Completion)
    requires forall i | 0 <= i < |hits| :: hits[i].score < SimilarityThreshold
    ensures Plan(question, hits).Done?
    ensures Query(question, hits, reply1) == Query(question, hits, reply2)
  {
  }
}

=== FILE: escalation.dfy ===
/** Hand-off to the human reviewer: the keyword trigger that bypasses the
    engine, and the notification posted to the admin chat. */
module Escalation {
  import opened Results
  import opened Text
  import opened Numbers

  /** Phrases that ask for a person; any of them anywhere in a message
      escalates it at once. */
  const Keywords: seq<string> := [
    "أريد التحدث مع شخص",
    "تحدث مع إنسان",
    "أريد مساعدة بشرية",
    "لم أفهم",
    "مو واضح",
    "ما فهمت",
    "مسؤول",
    "إداري",
    "تواصل مع",
    "رقم هاتف",
    "رقم الجوال",
    "أريد الاتصال"
  ]

  /** The trigger as a property: some keyword occurs in the stripped message. */
  predicate Triggers(message: string) {
    ContainsAny(Strip(message), Keywords)
  }

  /** `should_escalate_by_keywords`: strip, then test the keywords in order. */
  method ShouldEscalateByKeywords(message: string) returns (b: bool)
    ensures b <==> Triggers(message)
  {
    b := FindAny(Strip(message), Keywords);
  }

  /** Every keyword has at least five characters and no whitespace at
      either end. */
  lemma KeywordsAreTrimmed(k: nat)
    requires k < |Keywords|
    ensures |Keywords[k]| >= 5
    ensures !IsSpace(Keywords[k][0]) && !IsSpace(Keywords[k][|Keywords[k]| - 1])
  {
  }

  /** A message shorter than every keyword cannot trigger. */
  lemma ShortMessageHasNoKeyword(m: string)
    requires |m| < 5
    ensures !ContainsAny(m, Keywords)
  {
    forall k | 0 <= k < |Keywords|
      ensures !Contains(m, Keywords[k])
    {
      KeywordsAreTrimmed(k);
    }
  }

  /** The strip inside the trigger changes nothing: a message triggers exactly
      when some keyword occurs in the raw text. */
  lemma StripIsIrrelevant(message: string)
    ensures Triggers(message) <==> ContainsAny(message, Keywords)
  {
    if Triggers(message) {
      TriggerInRaw(message);
    }
    if ContainsAny(message, Keywords) {
      RawTriggers(message);
    }
  }

  lemma TriggerInRaw(message: string)
    requires Triggers(message)
    ensures ContainsAny(message, Keywords)
  {
    var k :| 0 <= k < |Keywords| && Contains(Strip(message), Keywords[k]);
    StripContained(message);
    ContainsTransitive(message, Strip(message), Keywords[k]);
  }

  lemma RawTriggers(message: string)
    requires ContainsAny(message, Keywords)
    ensures Triggers(message)
  {
    var k :| 0 <= k < |Keywords| && Contains(message, Keywords[k]);
    KeywordsAreTrimmed(k);
    TrimmedOccurrenceSurvivesStrip(message, Keywords[k]);
  }

  /** Hence stripping the message first does not change the verdict. */
  lemma TriggersOfStripped(message: string)
    ensures Triggers(Strip(message)) <==> Triggers(message)
  {
    StripIdempotent(message);
  }

  /** Adding text around a triggering message keeps it triggering. */
  lemma TriggerIsMonotone(message: string, longer: string)
    requires Contains(longer, message)
    requires Triggers(message)
    ensures Triggers(longer)
  {
    StripIsIrrelevant(message);
    var k :| 0 <= k < |Keywords| && Contains(message, Keywords[k]);
    ContainsTransitive(longer, message, Keywords[k]);
    StripIsIrrelevant(longer);
  }

  /** The plain request to talk to a person triggers. */
  lemma ExactRequestTriggers()
    ensures Triggers("أريد التحدث مع شخص")
  {
    KeywordTriggers(0);
  }

  /** Every keyword on its own triggers. */
  lemma KeywordTriggers(k: nat)
    requires k < |Keywords|
    ensures Triggers(Keywords[k])
  {
    var m := Keywords[k];
    KeywordsAreTrimmed(k);
    StripUnchanged(m);
    assert OccursAt(m, m, 0);
  }

  // ---------------------------------------------------------------------
  // Notification

  /** The person whose question is escalated. */
  datatype User = User(id: int, username: Option<string>, fullName: string)

  /** Characters of context quoted in a notification. */
  const ContextLimit: nat := 500

  const NoUsername: string := "بدون"
  const Rule: string := "━━━━━━━━━━━━━━━"

  /** `user_name or 'بدون'`: a missing or empty handle shows the placeholder. */
  function Handle(user: User): string {
    match user.username
    case Some(name) => if name == "" then NoUsername else name
    case None => NoUsername
  }

  /** The context as quoted: the first 500 characters followed by `...` when
      longer, otherwise all of it. */
  function Excerpt(context: string): (e: string)
    ensures |e| <= ContextLimit + 3
    ensures |context| <= ContextLimit ==> e == context
    ensures |context| > ContextLimit ==> StartsWith(e, context[..ContextLimit]) && e[ContextLimit..] == "..."
  {
    if |context| > ContextLimit then context[..ContextLimit] + "..." else context
  }

  /** The command the reviewer is told to type. */
  function ReplyCommand(userId: int): string {
    "/reply " + IntToString(userId)
  }

  /** The pieces of the notification's head, in order. */
  function HeadParts(user: User, question: string, reason: string): seq<string> {
    [ "🔔 <b>تصعيد جديد</b>\n" + Rule + "\n" + "👤 <b>المستخدم:</b> ",
      user.fullName,
      "\n" + "🆔 <b>المعرّف:</b> ",
      "@" + Handle(user),
      " (<code>" + IntToString(user.id) + "</code>)\n" + "📝 <b>السبب:</b> ",
      reason,
      "\n" + Rule + "\n" + "❓ <b>السؤال:</b>\n",
      question,
      "\n" ]
  }

  /** The optional context section around an excerpt. */
  function SectionParts(excerpt: string): seq<string> {
    [SectionTitle, excerpt, SectionEnd]
  }

  const SectionTitle: string := "\n📋 <b>سياق إضافي:</b>\n<i>"
  const SectionEnd: string := "</i>\n"

  /** The closing reply instruction. */
  function FootParts(userId: int): seq<string> {
    [ "\n" + Rule + "\n" + "💡 للرد على المستخدم، استخدم الأمر:\n" + "<code>",
      ReplyCommand(userId),
      " رسالتك هنا</code>" ]
  }

  function NoticeParts(user: User, question: string, context: string, reason: string): seq<string> {
    HeadParts(user, question, reason)
    + (if context != "" then SectionParts(Excerpt(context)) else [])
    + FootParts(user.id)
  }

  /** The escalation message of `escalate_to_admin`: the head, the context
      section for a non-empty context only, then the reply instruction. */
  function NoticeText(user: User, question: string, context: string, reason: string): string {
    Concat(NoticeParts(user, question, context, reason))
  }

  /** The message always names the user, the handle (or `@بدون`), the reason
      and the question, carries the `/reply <id>` instruction, and quotes a
      non-empty context through `Excerpt`. */
  lemma NoticeMentions(user: User, question: string, context: string, reason: string)
    ensures var text := NoticeText(user, question, context, reason);
      && Contains(text, user.fullName) && Contains(text, question) && Contains(text, reason)
      && Contains(text, "@" + Handle(user))
      && ((user.username == None || user.username == Some("")) ==> Contains(text, "@" + NoUsername))
      && Contains(text, ReplyCommand(user.id))
      && Contains(text, IntToString(user.id))
      && (context != "" ==> Contains(text, Excerpt(context)))
  {
    var parts := NoticeParts(user, question, context, reason);
    NoticePartsAt(user, question, context, reason);
    ConcatContainsPart(parts, 1);
    ConcatContainsPart(parts, 3);
    ConcatContainsPart(parts, 5);
    ConcatContainsPart(parts, 7);
    ConcatContainsPart(parts, |parts| - 2);
    CommandNamesId(user.id);
    ContainsTransitive(NoticeText(user, question, context, reason), ReplyCommand(user.id), IntToString(user.id));
    if context != "" {
      ConcatContainsPart(parts, 10);
    }
  }

  /** Where each piece sits among the notification's parts: the indices
      `NoticeMentions` hands to `ConcatContainsPart`. */
  lemma NoticePartsAt(user: User, question: string, context: string, reason: string)
    ensures var parts := NoticeParts(user, question, context, reason);
      && |parts| == (if context != "" then 15 else 12)
      && parts[1] == user.fullName && parts[3] == "@" + Handle(user)
      && parts[5] == reason && parts[7] == question
      && parts[|parts| - 2] == ReplyCommand(user.id)
      && (context != "" ==> parts[10] == Excerpt(context))
  {
  }

  /** The reply command names the user id. */
  lemma CommandNamesId(userId: int)
    ensures Contains(ReplyCommand(userId), IntToString(userId))
  {
    ContainsInfix("/reply ", IntToString(userId), "");
    assert "/reply " + IntToString(userId) + "" == ReplyCommand(userId);
  }

  /** The layout of the message: the head, then the context section only
      for a non-empty context, then the reply instruction. The section
      quotes the excerpt between its title and the closing tag. */
  lemma NoticeLayout(user: User, question: string, context: string, reason: string)
    ensures var text := NoticeText(user, question, context, reason);
      var head := Concat(HeadParts(user, question, reason));
      var foot := Concat(FootParts(user.id));
      && (context == "" ==> text == head + foot)
      && (context != "" ==> text == head + SectionTitle + Excerpt(context) + SectionEnd + foot)
  {
    var head, foot := HeadParts(user, question, reason), FootParts(user.id);
    if context == "" {
      assert NoticeParts(user, question, context, reason) == head + [] + foot;
      ConcatThree(head, [], foot);
    } else {
      var section := SectionParts(Excerpt(context));
      assert NoticeParts(user, question, context, reason) == head + section + foot;
      ConcatThree(head, section, foot);
      SectionText(Excerpt(context));
      StringsRegroup(Concat(head), SectionTitle, Excerpt(context), SectionEnd, Concat(foot));
    }
  }

  lemma SectionText(e: string)
    ensures Concat(SectionParts(e)) == SectionTitle + e + SectionEnd
  {
    ConcatAppend([SectionTitle], [e, SectionEnd]);
    ConcatAppend([e], [SectionEnd]);
    assert [SectionTitle, e, SectionEnd] == [SectionTitle] + [e, SectionEnd];
    assert [e, SectionEnd] == [e] + [SectionEnd];
  }

  /** A quick-reply button under the notification. */
  datatype Button = Button(caption: string, data: string)

  const ResolvedPrefix: string := "resolved:"
  const NotePrefix: string := "note:"

  function ResolvedData(userId: int): string {
    ResolvedPrefix + IntToString(userId)
  }

  function NoteData(userId: int): string {
    NotePrefix + IntToString(userId)
  }

  /** The two buttons: "answered" and "note". */
  function NoticeButtons(userId: int): seq<Button> {
    [Button("✅ تم الرد", ResolvedData(userId)), Button("📌 تعليق", NoteData(userId))]
  }

  /** Each button's payload is its prefix followed by the user id, and the id
      reads back from what follows the prefix. */
  lemma ButtonDataCarriesId(userId: int)
    ensures var row := NoticeButtons(userId);
      && |row| == 2
      && StartsWith(row[0].data, ResolvedPrefix)
      && StartsWith(row[1].data, NotePrefix)
      && ParseInt(row[0].data[|ResolvedPrefix|..]) == Some(userId)
      && ParseInt(row[1].data[|NotePrefix|..]) == Some(userId)
  {
    var row := NoticeButtons(userId);
    assert row[0].data[|ResolvedPrefix|..] == IntToString(userId);
    assert row[1].data[|NotePrefix|..] == IntToString(userId);
    ParseIntRoundTrip(userId);
  }

  /** What is posted to the admin chat. */
  datatype Notice = Notice(chatId: int, text: string, buttons: seq<Button>)

  function AdminNotice(adminChatId: int, user: User, question: string, context: string, reason: string): Notice {
    Notice(adminChatId, NoticeText(user, question, context, reason), NoticeButtons(user.id))
  }

  /** `escalate_to_admin` with the transport's `send_message` as `send`: the
      notice is handed to `send` once, and the result is true exactly when
      that call went through; a raised exception becomes `false`. */
  function EscalateToAdmin(
    adminChatId: int, user: User, question: string, context: string, reason: string,
    send: Notice -> SendResult): (delivered: bool)
    ensures delivered <==> send(AdminNotice(adminChatId, user, question, context, reason)) == Sent
  {
    match send(AdminNotice(adminChatId, user, question, context, reason))
    case Sent => true
    case Raised(_) => false
  }
}

=== FILE: numbers.dfy ===
/** Integer <-> decimal text as Python does it: `str(n)`, `int(s)`, and the
    two-decimal fixed-point rendering `format(x, ".2f")`. */
module Numbers {
  import opened Results
  import opened Text

  /** The decimal digits `int()` is modelled to accept: ASCII, Arabic-Indic
      (U+0660..U+0669) and Extended Arabic-Indic (U+06F0..U+06F9). */
  predicate IsDigit(c: char) {
    || ('0' <= c <= '9')
    || ('\U{0660}' <= c <= '\U{0669}')
    || ('\U{06F0}' <= c <= '\U{06F9}')
  }

  function DigitValue(c: char): (d: nat)
    requires IsDigit(c)
    ensures d < 10
  {
    if '0' <= c <= '9' then c as int - '0' as int
    else if c <= '\U{0669}' then c as int - 0x660
    else c as int - 0x6F0
  }

  /** The ASCII digit for `d`. */
  function DigitChar(d: nat): (c: char)
    requires d < 10
    ensures '0' <= c <= '9' && DigitValue(c) == d
  {
    ('0' as int + d) as char
  }

  predicate AllDigits(t: string) {
    forall i | 0 <= i < |t| :: IsDigit(t[i])
  }

  /** Python's `str(n)` for a non-negative `n`: ASCII digits, no leading zero. */
  function NatToString(n: nat): (r: string)
    ensures r != []
    ensures forall i | 0 <= i < |r| :: '0' <= r[i] <= '9'
    ensures r[0] == '0' ==> n == 0
  {
    if n < 10 then [DigitChar(n)] else NatToString(n / 10) + [DigitChar(n % 10)]
  }

  /** Python's `str(n)` for any integer. */
  function IntToString(n: int): string {
    if n < 0 then "-" + NatToString(-n) else NatToString(n)
  }

  /** The value of a string of decimal digits, most significant first. */
  function DigitsValue(t: string): nat
    requires AllDigits(t)
  {
    if t == [] then 0 else DigitsValue(t[..|t| - 1]) * 10 + DigitValue(t[|t| - 1])
  }

  predicate DigitsOrUnderscores(t: string) {
    forall i | 0 <= i < |t| :: IsDigit(t[i]) || t[i] == '_'
  }

  /** The digit part that `int()` accepts: digits, where a single underscore
      may separate two digits. */
  predicate IsNumeral(t: string) {
    && t != []
    && IsDigit(t[0])
    && IsDigit(t[|t| - 1])
    && DigitsOrUnderscores(t)
    && !Contains(t, "__")
  }

  /** `t` with its underscores removed; for a numeral, only the digits remain. */
  function DropUnderscores(t: string): (r: string)
    ensures |r| <= |t|
    ensures DigitsOrUnderscores(t) ==> AllDigits(r)
    ensures AllDigits(t) ==> r == t
  {
    if t == [] then [] else (if t[0] == '_' then [] else [t[0]]) + DropUnderscores(t[1..])
  }

  function ParseUnsigned(t: string): Option<nat> {
    if IsNumeral(t) then Some(DigitsValue(DropUnderscores(t))) else None
  }

  /** Python's `int(s)` on a `str`: surrounding whitespace, an optional sign,
      then a numeral; anything else raises `ValueError`, modelled as `None`.
      So an accepted argument is, once stripped, a leading sign and digits
      and underscores only (a letter, `@` or an inner space is rejected), and
      every stripped run of digits is accepted with its decimal value. */
  function ParseInt(s: string): (r: Option<int>)
    ensures Strip(s) == [] ==> r == None
    ensures r.Some? ==> var t := Strip(s);
      && t != []
      && forall i | 0 <= i < |t| :: IsDigit(t[i]) || t[i] == '_' || (i == 0 && (t[i] == '-' || t[i] == '+'))
    ensures var t := Strip(s); t != [] && AllDigits(t) ==> r == Some(DigitsValue(t))
  {
    AcceptedShape(Strip(s));
    DigitsAccepted(Strip(s));
    ParseSigned(Strip(s))
  }

  /** A non-empty run of digits reads as its decimal value. */
  lemma DigitsAccepted(t: string)
    ensures t != [] && AllDigits(t) ==> ParseSigned(t) == Some(DigitsValue(t))
  {
    if t != [] && AllDigits(t) {
      NoUnderscorePair(t);
      assert IsNumeral(t);
    }
  }

  /** What `ParseSigned` accepts: a leading sign, then digits and
      underscores only. */
  lemma AcceptedShape(t: string)
    ensures ParseSigned(t).Some? ==>
      && t != []
      && forall i | 0 <= i < |t| :: IsDigit(t[i]) || t[i] == '_' || (i == 0 && (t[i] == '-' || t[i] == '+'))
  {
    if ParseSigned(t).Some? && (t[0] == '-' || t[0] == '+') {
      assert forall i | 1 <= i < |t| :: t[i] == t[1..][i - 1];
    }
  }

  /** An optional sign followed by a numeral. */
  function ParseSigned(t: string): Option<int> {
    if t != [] && (t[0] == '-' || t[0] == '+') then
      match ParseUnsigned(t[1..])
      case Some(n) =>
        var v: int := n;
        if t[0] == '-' then Some(-v) else Some(v)
      case None => None
    else
      match ParseUnsigned(t)
      case Some(n) => Some(n)
      case None => None
  }

  /** Reading back a rendered natural number gives the number. */
  lemma {:induction false} DigitsValueOfNatToString(n: nat)
    ensures AllDigits(NatToString(n))
    ensures DigitsValue(NatToString(n)) == n
    decreases n
  {
    var r := NatToString(n);
    assert AllDigits(r);
    if n >= 10 {
      DigitsValueOfNatToString(n / 10);
      assert r[..|r| - 1] == NatToString(n / 10);
    }
  }

  /** `int(str(n)) == n`: the id written into a `/reply` instruction or a
      callback payload parses back to the same integer. */
  lemma ParseIntRoundTrip(n: int)
    ensures ParseInt(IntToString(n)) == Some(n)
  {
    IntToStringIsStripped(n);
    ParseSignedOfIntToString(n);
  }

  lemma IntToStringIsStripped(n: int)
    ensures Strip(IntToString(n)) == IntToString(n)
  {
    var s := IntToString(n);
    var d := NatToString(if n < 0 then -n else n);
    assert s[|s| - 1] == d[|d| - 1];
    assert '0' <= s[|s| - 1] <= '9';
    assert s[0] == '-' || '0' <= s[0] <= '9';
    StripUnchanged(s);
  }

  lemma ParseSignedOfIntToString(n: int)
    ensures ParseSigned(IntToString(n)) == Some(n)
  {
    var m: nat := if n < 0 then -n else n;
    ParseUnsignedOfNatToString(m);
    if n < 0 {
      SignedNegative(NatToString(m), m);
    } else {
      SignedPlain(NatToString(m), m);
    }
  }

  /** A numeral after a minus sign reads as the negated value. */
  lemma SignedNegative(d: string, m: nat)
    requires ParseUnsigned(d) == Some(m)
    ensures ParseSigned("-" + d) == Some(-(m as int))
  {
    var t := "-" + d;
    assert t[0] == '-' && t[1..] == d;
  }

  /** A numeral that starts with a digit reads as its own value. */
  lemma SignedPlain(d: string, m: nat)
    requires d != [] && '0' <= d[0] <= '9'
    requires ParseUnsigned(d) == Some(m)
    ensures ParseSigned(d) == Some(m)
  {
  }

  lemma ParseUnsignedOfNatToString(m: nat)
    ensures ParseUnsigned(NatToString(m)) == Some(m)
  {
    var d := NatToString(m);
    DigitsValueOfNatToString(m);
    NoUnderscorePair(d);
    assert IsNumeral(d);
  }

  lemma NoUnderscorePair(t: string)
    requires AllDigits(t)
    ensures !Contains(t, "__")
  {
    forall i | 0 <= i <= |t| - 2
      ensures !OccursAt(t, "__", i)
    {
      assert IsDigit(t[i]);
    }
  }

  /** Round half to even of a non-negative value. */
  function RoundHalfEven(x: real): (n: nat)
    requires x >= 0.0
    ensures n as real - 0.5 <= x <= n as real + 0.5
  {
    var f := x.Floor;
    var frac := x - f as real;
    if frac > 0.5 then f + 1
    else if frac < 0.5 then f
    else if f % 2 == 0 then f
    else f + 1
  }

  function UnsignedFixed2(x: real): string
    requires x >= 0.0
  {
    var cents := RoundHalfEven(x * 100.0);
    NatToString(cents / 100) + "." + [DigitChar(cents % 100 / 10), DigitChar(cents % 10)]
  }

  /** Python's `format(x, ".2f")` for a double whose exact value is `x`: that
      value rounded half-to-even to two decimals, with a `-` for any
      negative `x` (so `-0.001` renders as `-0.00`). */
  function Fixed2(x: real): (r: string)
    ensures |r| >= 4 && r[|r| - 3] == '.'
    ensures '0' <= r[|r| - 2] <= '9' && '0' <= r[|r| - 1] <= '9'
    ensures r[0] == '-' <==> x < 0.0
  {
    if x < 0.0 then "-" + UnsignedFixed2(-x) else UnsignedFixed2(x)
  }

  /** The rounding rule on values where it matters. */
  lemma Fixed2Examples()
    ensures Fixed2(0.0) == "0.00"
    ensures Fixed2(0.8) == "0.80"
    ensures Fixed2(0.125) == "0.12"
    ensures Fixed2(0.375) == "0.38"
    ensures Fixed2(-0.001) == "-0.00"
  {
    assert RoundHalfEven(12.5) == 12;
    assert RoundHalfEven(37.5) == 38;
    assert RoundHalfEven(0.1) == 0;
  }

  /** The double written 0.355 lies just below the midpoint, so it renders
      as `0.35`, not `0.36`. */
  lemma Fixed2OfDoubleNearMidpoint()
    ensures Fixed2(0.354999999999999982236431605997495353221893310546875) == "0.35"
  {
    assert RoundHalfEven(35.4999999999999982236431605997495353221893310546875) == 35;
  }
}

=== FILE: results.dfy ===
/** The two small sum types the other modules share. */
module Results {

  /** Python's `None` or a present value. */
  datatype Option<T> = None | Some(value: T)

  /** How one call into the chat transport ended: delivered, or an
      exception was raised, carrying its text. */
  datatype SendResult = Sent | Raised(error: string)
}

=== FILE: text.dfy ===
/** The few Python `str` operations the bot relies on, over `seq<char>`:
    `isspace`, `strip`, `in`, `startswith`, `replace` and `join`. */
module Text {

  /** Python's `str.isspace()` for a single character: the ASCII controls
      TAB..CR and FS..US, the space, NEL, NO-BREAK SPACE and the Unicode
      space separators, line and paragraph separators. */
  predicate IsSpace(c: char) {
    || ('\t' <= c <= '\r')
    || ('\U{1C}' <= c <= ' ')
    || c == '\U{85}'
    || c == '\U{A0}'
    || c == '\U{1680}'
    || ('\U{2000}' <= c <= '\U{200A}')
    || c == '\U{2028}'
    || c == '\U{2029}'
    || c == '\U{202F}'
    || c == '\U{205F}'
    || c == '\U{3000}'
  }

  /** Python's `str.lstrip()`: drops the leading whitespace. */
  function TrimStart(s: string): (r: string)
    ensures |r| <= |s| && r == s[|s| - |r|..]
    ensures forall i | 0 <= i < |s| - |r| :: IsSpace(s[i])
    ensures r != [] ==> !IsSpace(r[0])
  {
    if s != [] && IsSpace(s[0]) then
      var r := TrimStart(s[1..]);
      assert forall i | 1 <= i < |s| - |r| :: s[i] == s[1..][i - 1];
      r
    else
      s
  }

  /** Python's `str.rstrip()`: drops the trailing whitespace. */
  function TrimEnd(s: string): (r: string)
    ensures |r| <= |s| && r == s[..|r|]
    ensures forall i | |r| <= i < |s| :: IsSpace(s[i])
    ensures r != [] ==> !IsSpace(r[|r| - 1])
  {
    if s != [] && IsSpace(s[|s| - 1]) then
      var r := TrimEnd(s[..|s| - 1]);
      assert forall i | |r| <= i < |s| - 1 :: s[i] == s[..|s| - 1][i];
      r
    else
      s
  }

  /** Python's `str.strip()` with no argument. */
  function Strip(s: string): string {
    TrimEnd(TrimStart(s))
  }

  /** `Strip(s)` is the window `s[lo..hi]`: everything before `lo` and from
      `hi` on is whitespace, and a non-empty window starts and ends with a
      non-space character. */
  lemma StripWindow(s: string) returns (lo: nat, hi: nat)
    ensures lo <= hi <= |s|
    ensures Strip(s) == s[lo..hi]
    ensures forall j | 0 <= j < lo :: IsSpace(s[j])
    ensures forall j | hi <= j < |s| :: IsSpace(s[j])
    ensures lo < hi ==> !IsSpace(s[lo]) && !IsSpace(s[hi - 1])
  {
    var t := TrimStart(s);
    var r := TrimEnd(t);
    lo, hi := TrimmedWindow(s, t, r);
  }

  /** The window facts for any `t` that is `s` without leading blanks and
      `r` that is `t` without trailing ones. */
  lemma TrimmedWindow(s: string, t: string, r: string) returns (lo: nat, hi: nat)
    requires |t| <= |s| && t == s[|s| - |t|..] && forall i | 0 <= i < |s| - |t| :: IsSpace(s[i])
    requires t != [] ==> !IsSpace(t[0])
    requires |r| <= |t| && r == t[..|r|] && forall i | |r| <= i < |t| :: IsSpace(t[i])
    requires r != [] ==> !IsSpace(r[|r| - 1])
    ensures lo <= hi <= |s|
    ensures r == s[lo..hi]
    ensures forall j | 0 <= j < lo :: IsSpace(s[j])
    ensures forall j | hi <= j < |s| :: IsSpace(s[j])
    ensures lo < hi ==> !IsSpace(s[lo]) && !IsSpace(s[hi - 1])
  {
    lo := |s| - |t|;
    hi := lo + |r|;
    forall j | hi <= j < |s|
      ensures IsSpace(s[j])
    {
      assert s[j] == t[j - lo];
    }
    if lo < hi {
      assert s[lo] == r[0] == t[0];
      assert s[hi - 1] == r[|r| - 1];
    }
  }

  /** Stripping twice is stripping once: the result has no surrounding
      whitespace left. */
  lemma StripIdempotent(s: string)
    ensures Strip(Strip(s)) == Strip(s)
  {
    var r := Strip(s);
    var lo, hi := StripWindow(s);
    if r != [] {
      assert r[0] == s[lo] && r[|r| - 1] == s[hi - 1];
    }
    StripUnchanged(r);
  }

  /** A non-empty text that is its own strip starts and ends with a
      non-space character. */
  lemma StrippedEnds(s: string)
    requires s != [] && Strip(s) == s
    ensures !IsSpace(s[0]) && !IsSpace(s[|s| - 1])
  {
    var t := TrimStart(s);
    assert |TrimEnd(t)| == |s|;
    assert t == s;
  }

  /** A string that neither starts nor ends with whitespace is its own strip. */
  lemma StripUnchanged(s: string)
    requires s != [] ==> !IsSpace(s[0]) && !IsSpace(s[|s| - 1])
    ensures Strip(s) == s
  {
    assert TrimStart(s) == s;
  }

  /** A whitespace character before a stripped text is stripped away. */
  lemma StripLeadingSpace(c: char, t: string)
    requires IsSpace(c)
    requires t != [] && !IsSpace(t[0]) && !IsSpace(t[|t| - 1])
    ensures Strip([c] + t) == t
  {
    var s := [c] + t;
    assert s[1..] == t;
    assert TrimStart(t) == t;
    assert TrimStart(s) == t;
    StripUnchanged(t);
  }

  /** A whitespace character after a stripped text is stripped away. */
  lemma StripTrailingSpace(t: string, c: char)
    requires IsSpace(c) && Strip(t) == t
    ensures Strip(t + [c]) == t
  {
    if t == [] {
      assert t + [c] == [c];
      StripSpace(c);
    } else {
      StrippedEnds(t);
      StripSpaceAfter(t, c);
    }
  }

  lemma StripSpace(c: char)
    requires IsSpace(c)
    ensures Strip([c]) == []
  {
    assert [c][1..] == [];
  }

  lemma StripSpaceAfter(t: string, c: char)
    requires IsSpace(c)
    requires t != [] && !IsSpace(t[0]) && !IsSpace(t[|t| - 1])
    ensures Strip(t + [c]) == t
  {
    var s := t + [c];
    assert s[..|s| - 1] == t;
    assert TrimStart(s) == s;
    assert TrimEnd(t) == t;
  }

  /** A text that starts and ends without whitespace is its own strip,
      whatever lies between. */
  lemma StripAround(a: string, m: string, b: string)
    requires a != [] && b != []
    requires !IsSpace(a[0]) && !IsSpace(b[|b| - 1])
    ensures Strip(a + m + b) == a + m + b
  {
    var s := a + m + b;
    assert s[0] == a[0];
    assert s[|s| - 1] == b[|b| - 1];
    StripUnchanged(s);
  }

  /** `sub` occurs in `s` starting at index `i`. */
  predicate OccursAt(s: string, sub: string, i: int) {
    0 <= i && i + |sub| <= |s| && s[i..i + |sub|] == sub
  }

  /** Python's `sub in s`. */
  predicate Contains(s: string, sub: string) {
    exists i | 0 <= i <= |s| - |sub| :: OccursAt(s, sub, i)
  }

  /** Python's `s.startswith(prefix)`. */
  predicate StartsWith(s: string, prefix: string) {
    |prefix| <= |s| && s[..|prefix|] == prefix
  }

  /** A concatenation starts with its first part. */
  lemma PrefixStarts(prefix: string, rest: string)
    ensures StartsWith(prefix + rest, prefix)
  {
    assert (prefix + rest)[..|prefix|] == prefix;
  }

  /** Whatever occurs in a part of a concatenation occurs in the whole. */
  lemma ContainsInfix(x: string, s: string, y: string)
    ensures Contains(x + s + y, s)
  {
    assert OccursAt(x + s + y, s, |x|);
  }

  /** Substring containment is transitive. */
  lemma ContainsTransitive(a: string, b: string, c: string)
    requires Contains(a, b) && Contains(b, c)
    ensures Contains(a, c)
  {
    var i :| 0 <= i <= |a| - |b| && OccursAt(a, b, i);
    var j :| 0 <= j <= |b| - |c| && OccursAt(b, c, j);
    forall k | 0 <= k < |c|
      ensures a[i + j + k] == c[k]
    {
      assert c[k] == b[j..j + |c|][k] == b[j + k];
      assert b[j + k] == a[i..i + |b|][j + k];
    }
    assert a[i + j..i + j + |c|] == c;
    assert OccursAt(a, c, i + j);
  }

  /** The stripped text occurs in the original. */
  lemma StripContained(s: string)
    ensures Contains(s, Strip(s))
  {
    var lo, hi := StripWindow(s);
    assert OccursAt(s, Strip(s), lo);
  }

  /** An occurrence of a pattern that neither starts nor ends with whitespace
      lies inside the stripped window, so it survives stripping. */
  lemma TrimmedOccurrenceSurvivesStrip(s: string, sub: string)
    requires sub != [] && !IsSpace(sub[0]) && !IsSpace(sub[|sub| - 1])
    requires Contains(s, sub)
    ensures Contains(Strip(s), sub)
  {
    var lo, hi := StripWindow(s);
    OccurrenceInsideWindow(s, sub, lo, hi);
  }

  lemma OccurrenceInsideWindow(s: string, sub: string, lo: nat, hi: nat)
    requires sub != [] && !IsSpace(sub[0]) && !IsSpace(sub[|sub| - 1])
    requires Contains(s, sub)
    requires lo <= hi <= |s|
    requires forall j | 0 <= j < lo :: IsSpace(s[j])
    requires forall j | hi <= j < |s| :: IsSpace(s[j])
    ensures Contains(s[lo..hi], sub)
  {
    var i :| 0 <= i <= |s| - |sub| && OccursAt(s, sub, i);
    var last := i + |sub| - 1;
    assert s[i] == s[i..i + |sub|][0];
    assert s[last] == s[i..i + |sub|][|sub| - 1];
    assert lo <= i;
    assert last < hi;
    var w := s[lo..hi];
    forall k | 0 <= k < |sub|
      ensures w[i - lo + k] == sub[k]
    {
      assert sub[k] == s[i..i + |sub|][k];
    }
    assert w[i - lo..i - lo + |sub|] == sub;
    assert OccursAt(w, sub, i - lo);
  }

  /** The `in` operator as a left-to-right search. */
  method FindSubstring(s: string, sub: string) returns (found: bool)
    ensures found <==> Contains(s, sub)
  {
    if |sub| > |s| {
      return false;
    }
    var i := 0;
    while i <= |s| - |sub|
      invariant 0 <= i <= |s| - |sub| + 1
      invariant forall j | 0 <= j < i :: !OccursAt(s, sub, j)
    {
      if s[i..i + |sub|] == sub {
        assert OccursAt(s, sub, i);
        return true;
      }
      i := i + 1;
    }
    return false;
  }

  /** Python's `s.replace(pat, repl)` for a non-empty `pat`: scanning from the
      left, every non-overlapping occurrence of `pat` is replaced by `repl`. */
  function ReplaceAll(s: string, pat: string, repl: string): string
    requires pat != []
    decreases |s|
  {
    if |s| < |pat| then s
    else if s[..|pat|] == pat then repl + ReplaceAll(s[|pat|..], pat, repl)
    else [s[0]] + ReplaceAll(s[1..], pat, repl)
  }

  /** Replacing a pattern that does not occur changes nothing. */
  lemma {:induction false} ReplaceAbsent(s: string, pat: string, repl: string)
    requires pat != []
    requires !Contains(s, pat)
    ensures ReplaceAll(s, pat, repl) == s
    decreases |s|
  {
    if |s| < |pat| {
    } else {
      assert !OccursAt(s, pat, 0);
      assert s[..|pat|] != pat;
      forall i | 0 <= i <= |s| - 1 - |pat|
        ensures !OccursAt(s[1..], pat, i)
      {
        assert s[1..][i..i + |pat|] == s[i + 1..i + 1 + |pat|];
        assert !OccursAt(s, pat, i + 1);
      }
      ReplaceAbsent(s[1..], pat, repl);
    }
  }

  /** A pattern whose only occurrence is at the very end is replaced there
      and nowhere else. */
  lemma {:induction false} ReplaceSuffix(x: string, pat: string, repl: string)
    requires pat != []
    requires forall i | 0 <= i < |x| :: !OccursAt(x + pat, pat, i)
    ensures ReplaceAll(x + pat, pat, repl) == x + repl
    decreases |x|
  {
    var s := x + pat;
    if x == [] {
      assert s == pat;
      assert s[..|pat|] == pat;
      assert s[|pat|..] == [];
    } else {
      assert !OccursAt(s, pat, 0);
      assert s[..|pat|] != pat;
      forall i | 0 <= i < |x| - 1
        ensures !OccursAt(x[1..] + pat, pat, i)
      {
        assert (x[1..] + pat)[i..i + |pat|] == s[i + 1..i + 1 + |pat|];
        assert !OccursAt(s, pat, i + 1);
      }
      ReplaceSuffix(x[1..], pat, repl);
      assert s[1..] == x[1..] + pat;
      assert [x[0]] + (x[1..] + repl) == x + repl;
    }
  }

  /** Both copies of a pattern around a separating character are replaced,
      not only the first. */
  lemma ReplaceBothCopies(pat: string, c: char)
    requires pat != [] && pat[0] != c
    ensures ReplaceAll(pat + [c] + pat, pat, []) == [c]
  {
    var t := [c] + pat;
    assert pat + [c] + pat == pat + t;
    ReplaceLeading(pat, t, []);
    assert t[..|pat|] != pat by {
      assert t[..|pat|][0] == c;
    }
    assert t[1..] == pat;
    assert ReplaceAll(t, pat, []) == [c] + ReplaceAll(pat, pat, []);
    ReplaceLeading(pat, [], []);
    assert pat + [] == pat;
  }

  /** An occurrence at the very front is replaced, and the scan resumes after it. */
  lemma ReplaceLeading(pat: string, rest: string, repl: string)
    requires pat != []
    ensures ReplaceAll(pat + rest, pat, repl) == repl + ReplaceAll(rest, pat, repl)
  {
    var s := pat + rest;
    assert s[..|pat|] == pat;
    assert s[|pat|..] == rest;
  }

  /** Deleting every occurrence of `pat` never lengthens the text, and when
      `pat` does occur the text loses at least one copy of it. */
  lemma {:induction false} RemoveShrinks(s: string, pat: string)
    requires pat != []
    ensures |ReplaceAll(s, pat, [])| <= |s|
    ensures Contains(s, pat) ==> |ReplaceAll(s, pat, [])| <= |s| - |pat|
    decreases |s|
  {
    if |s| < |pat| {
    } else if s[..|pat|] == pat {
      RemoveShrinks(s[|pat|..], pat);
    } else {
      RemoveShrinks(s[1..], pat);
      if Contains(s, pat) {
        var i :| 0 <= i <= |s| - |pat| && OccursAt(s, pat, i);
        assert i != 0;
        assert s[1..][i - 1..i - 1 + |pat|] == s[i..i + |pat|];
        assert OccursAt(s[1..], pat, i - 1);
      }
    }
  }

  /** The concatenation of `parts`, in order. */
  function Concat(parts: seq<string>): string {
    if parts == [] then "" else parts[0] + Concat(parts[1..])
  }

  /** Every piece of a concatenation occurs in it. */
  lemma {:induction false} ConcatContainsPart(parts: seq<string>, i: nat)
    requires i < |parts|
    ensures Contains(Concat(parts), parts[i])
    decreases |parts|
  {
    if i == 0 {
      ContainsInfix("", parts[0], Concat(parts[1..]));
      assert "" + parts[0] + Concat(parts[1..]) == Concat(parts);
    } else {
      ConcatContainsPart(parts[1..], i - 1);
      ContainsInfix(parts[0], Concat(parts[1..]), "");
      assert parts[0] + Concat(parts[1..]) + "" == Concat(parts);
      ContainsTransitive(Concat(parts), Concat(parts[1..]), parts[i]);
    }
  }

  /** Concatenation distributes over appending part lists. */
  lemma {:induction false} ConcatAppend(a: seq<string>, b: seq<string>)
    ensures Concat(a + b) == Concat(a) + Concat(b)
    decreases |a|
  {
    if a == [] {
      assert a + b == b;
    } else {
      assert (a + b)[1..] == a[1..] + b;
      ConcatAppend(a[1..], b);
    }
  }

  /** Concatenating three part lists is concatenating their texts. */
  lemma ConcatThree(a: seq<string>, b: seq<string>, c: seq<string>)
    ensures Concat(a + b + c) == Concat(a) + Concat(b) + Concat(c)
  {
    ConcatAppend(a + b, c);
    ConcatAppend(a, b);
  }

  /** Regrouping a five-piece text; `NoticeLayout` needs it over abstract
      pieces, as the same step on the notification's literals is too costly. */
  lemma StringsRegroup(a: string, x: string, y: string, z: string, b: string)
    ensures a + (x + y + z) + b == a + x + y + z + b
  {
  }

  /** Some pattern of `patterns` occurs in `s`. */
  predicate ContainsAny(s: string, patterns: seq<string>) {
    exists k | 0 <= k < |patterns| :: Contains(s, patterns[k])
  }

  /** Python's `any(p in s for p in patterns)`. */
  method FindAny(s: string, patterns: seq<string>) returns (found: bool)
    ensures found <==> ContainsAny(s, patterns)
  {
    var k := 0;
    while k < |patterns|
      invariant 0 <= k <= |patterns|
      invariant forall j | 0 <= j < k :: !Contains(s, patterns[j])
    {
      found := FindSubstring(s, patterns[k]);
      if found {
        return;
      }
      k := k + 1;
    }
    return false;
  }

  /** Python's `sep.join(parts)`. */
  function Join(parts: seq<string>, sep: string): string {
    if |parts| == 0 then ""
    else if |parts| == 1 then parts[0]
    else Join(parts[..|parts| - 1], sep) + sep + parts[|parts| - 1]
  }

  /** Every joined part appears in the joined text. */
  lemma {:induction false} JoinContainsPart(parts: seq<string>, sep: string, i: nat)
    requires i < |parts|
    ensures Contains(Join(parts, sep), parts[i])
    decreases |parts|
  {
    if |parts| == 1 {
      ContainsSelf(parts[0]);
    } else {
      var init, last := parts[..|parts| - 1], parts[|parts| - 1];
      assert Join(parts, sep) == Join(init, sep) + sep + last;
      if i == |parts| - 1 {
        ContainsSuffix(Join(init, sep) + sep, last);
      } else {
        JoinContainsPart(init, sep, i);
        assert init[i] == parts[i];
        ContainsFirst(Join(init, sep), sep, last);
        ContainsTransitive(Join(parts, sep), Join(init, sep), parts[i]);
      }
    }
  }

  lemma ContainsSelf(s: string)
    ensures Contains(s, s)
  {
    assert OccursAt(s, s, 0);
  }

  lemma ContainsFirst(a: string, m: string, b: string)
    ensures Contains(a + m + b, a)
  {
    assert (a + m + b)[..|a|] == a;
    assert OccursAt(a + m + b, a, 0);
  }

  lemma ContainsSuffix(a: string, b: string)
    ensures Contains(a + b, b)
  {
    assert OccursAt(a + b, b, |a|);
  }

  /** In a text framed as `a + x + b + y + c`, both `x` and `y` occur. */
  lemma FramedPieces(a: string, x: string, b: string, y: string, c: string)
    ensures Contains(a + x + b + y + c, x)
    ensures Contains(a + x + b + y + c, y)
  {
    assert a + x + b + y + c == a + x + (b + y + c);
    ContainsInfix(a, x, b + y + c);
    ContainsInfix(a + x + b, y, c);
  }

  /** A pattern cannot occur across the separator `c` of `a + [c] + b` when
      it holds another character at the place where `c` would fall. */
  lemma OccurrenceAcross(a: string, c: char, b: string, t: string, i: int)
    requires 0 <= i <= |a| < i + |t| <= |a| + 1 + |b|
    requires t[|a| - i] != c
    ensures !OccursAt(a + [c] + b, t, i)
  {
    assert (a + [c] + b)[i..i + |t|][|a| - i] == c;
  }

  /** An occurrence lying wholly inside the first part of `a + m + b` is
      one in `a`. */
  lemma OccurrenceInFirst(a: string, m: string, b: string, t: string, i: int)
    requires 0 <= i && i + |t| <= |a|
    ensures OccursAt(a + m + b, t, i) ==> OccursAt(a, t, i)
  {
    assert (a + m + b)[i..i + |t|] == a[i..i + |t|];
  }

  /** An occurrence lying wholly inside the last part of `a + m + b` is one
      in `b`. */
  lemma OccurrenceInLast(a: string, m: string, b: string, t: string, i: int)
    requires |a| + |m| <= i && i + |t| <= |a| + |m| + |b|
    ensures OccursAt(a + m + b, t, i) ==> OccursAt(b, t, i - |a| - |m|)
  {
    assert (a + m + b)[i..i + |t|] == b[i - |a| - |m|..i - |a| - |m| + |t|];
  }
}
